=== FILE: README.md ===
# Article page model

A Dafny model of the article page of the newsletter front end
(`src/Component/ArticleSkeleton.js`). The page loads one article as JSON and
renders it. The model covers the logic that decides what is shown:

- `hasContent`, the presence test that gates every conditional render.
- The heading block: title, category, date and the tag list from
  `convertTagsToArray`.
- The content area. Each section has six kinds of content: subtitle,
  paragraph, image, video, table and call-to-action button. Each kind has a
  renderer (`renderImage`, `renderVideo`, `renderTable`, `renderCTA`).
- The "More Articles" panel: `removeObjectByTitle`, the list-loading effect,
  and the four-card slice.
- The link a card opens (`onClickArticle`).
- The subscribe form (`onSubscribe` and the button and Enter key that call it).

The JSON payload is a `Json` datatype. `Null` stands for both `null` and
`undefined`, and a missing member reads as `Null`. Code that can throw on
an unexpected payload returns an `Outcome`: either a value or the
`TypeError` it would raise. Markup is abstracted to render parts that keep
the raw JSON value React would print. Falsy `&&` operands are kept too: a
`0` in a section's `image`, `video`, `table` or `cta` field prints "0".

Modules, one per file:

- `Text` (`text.dfy`): JavaScript `trim` (the ECMAScript white space and
  line terminator set), `split`/`join` on one character, and decimal numerals.
- `Json` (`json.dfy`): the payload, property reads, truthiness, `hasContent`.
- `Tags` (`tags.dfy`): `convertTagsToArray`.
- `MoreArticles` (`more_articles.dfy`): `removeObjectByTitle`, the
  list-loading effect and the panel.
- `Sections` (`sections.dfy`): the four renderers and the per-section
  dispatch.
- `Page` (`page.dfy`): the heading block, the content area and the article link.
- `Subscribe` (`subscribe.dfy`): the subscribe form as a state machine.

Titles need not be unique: `removeObjectByTitle` keeps every entry whose
title differs, so it drops every entry carrying the current title, not just
one (`MoreArticles.RemoveObjectByTitle`).

## Model

| member | source | states |
|---|---|---|
| Json.Get | src/Component/ArticleSkeleton.js:142 | A read gives a value only from an object that binds the key, and on an object a missing key reads as `undefined`. For every member the page reads except `length` and `link`, that key on a non-object also reads as `undefined`. `length` is `Page.LengthPositive`. A string inherits `link` from `String.prototype`, but the page reads `cta.link` only once `cta.text` has content, so `cta` is then an object |
| Json.GetFirstBinding | src/Component/ArticleSkeleton.js:142 | Reading a key an object binds gives the value bound to it, its first binding |
| Json.Falsy | src/Component/ArticleSkeleton.js:110 | JavaScript falsiness on JSON values: `null`/`undefined`, `false`, `0` and `""`; arrays and objects are never falsy |
| Json.HasContent | src/Component/ArticleSkeleton.js:129-138 | `hasContent`: `null` is absent, a string needs a character left after trimming, an array needs an element, an object needs a present value, and any other value is present |
| Json.ContentIsPresentLeaf | src/Component/ArticleSkeleton.js:129-138 | `hasContent(v)` holds exactly when a path through object members reaches a present leaf: a string with a non-white-space character, a non-empty array, or any boolean or number |
| Json.MemberContent | src/Component/ArticleSkeleton.js:133-136 | A present member makes its object present, so the renderers' first `hasContent(x)` gate is implied by the member gate that follows it |
| Json.FalsyYetPresent | src/Component/ArticleSkeleton.js:137 | Among falsy values, `hasContent` counts exactly `false` and `0` as present |
| Json.StringContent | src/Component/ArticleSkeleton.js:131 | A string is present exactly when some character of it is not white space |
| Text.Trim | src/Component/ArticleSkeleton.js:131 | The trimmed string has no white space at either end, is no longer than the input, and is empty exactly when the input is all white space |
| Text.TrimDecompose | src/Component/ArticleSkeleton.js:131 | The trimmed string is a slice of the input with only white space before and after it |
| Text.TrimPadded | src/Component/ArticleSkeleton.js:72 | Trimming a trimmed string padded with white space gives that string back |
| Text.TrimIdempotent | src/Component/ArticleSkeleton.js:111 | Trimming an already trimmed title changes nothing |
| Text.Split | src/Component/ArticleSkeleton.js:72 | Splitting on a character gives at least one piece, at most one more piece than there are characters, and no piece contains the separator |
| Text.SplitJoin | src/Component/ArticleSkeleton.js:72 | Joining the pieces of a split with the separator rebuilds the input |
| Text.JoinSplit | src/Component/ArticleSkeleton.js:72 | Splitting undoes joining: separator-free pieces joined with the separator split back into the same pieces |
| Text.DecimalRoundTrip | src/Component/ArticleSkeleton.js:207 | The column number printed in a header fallback reads back as the same number |
| Tags.ConvertTagsToArray | src/Component/ArticleSkeleton.js:68-73 | A falsy or non-string value gives no tags. For a string, the tags are exactly the non-empty trimmed comma-separated pieces, each non-empty, with no white space at its ends and no comma. There is at most one more tag than there are characters |
| Tags.CleanPiecesWellFormed | src/Component/ArticleSkeleton.js:72 | Trimming the pieces and dropping the empty ones leaves only well-formed tags, never more than there were pieces |
| Tags.CleanPiecesMembers | src/Component/ArticleSkeleton.js:72 | The kept tags are exactly the non-empty trimmed pieces |
| Tags.CleanPiecesConcat | src/Component/ArticleSkeleton.js:72 | Pieces are cleaned one by one, so the kept tags stay in the pieces' order |
| Tags.TagsRoundTrip | src/Component/ArticleSkeleton.js:68-73 | A non-empty list of well-formed tags joined with ", " converts back to the same list |
| Tags.JoinedPiecesToTags | src/Component/ArticleSkeleton.js:68-73 | For any comma-free pieces joined with ",", the tags are exactly those pieces trimmed, with the blank ones dropped, in order |
| Tags.SplitExample | src/Component/ArticleSkeleton.js:72 | `" a, b ,,c "` gives `["a", "b", "c"]`: blank pieces are dropped and the others trimmed |
| MoreArticles.RemoveObjectByTitle | src/Component/ArticleSkeleton.js:63-66 | A non-array gives `[]`. For an array it throws exactly when it holds `null`. Otherwise no kept entry has the given title, and exactly one entry is dropped per entry with that title |
| MoreArticles.KeepOthersSpec | src/Component/ArticleSkeleton.js:65 | The filter keeps exactly the entries with a different title, in input order, and drops one entry per match |
| MoreArticles.RemoveIsReversedSelection | src/Component/ArticleSkeleton.js:63-66 | The result reversed is an order-preserving selection of the input, and holds every entry with a different title and nothing else |
| MoreArticles.Reverse | src/Component/ArticleSkeleton.js:65 | The reversed list has the same length, and position `i` holds the input's entry at `length - 1 - i` |
| MoreArticles.AfterListLoad | src/Component/ArticleSkeleton.js:41-60 | With a title and a non-null response, the list becomes `removeObjectByTitle` of the response's `data` when that does not throw, and stays as it was when it throws. With no title, a transport failure or a `null` body it stays. A list free of `null` stays free of `null` |
| MoreArticles.Shown | src/Component/ArticleSkeleton.js:394 | The panel shows the first `min(length, 4)` entries of the list |
| MoreArticles.MorePanel | src/Component/ArticleSkeleton.js:390-419 | The panel throws exactly when a shown entry is `null`. Otherwise it is absent exactly for an empty list, and has at most four cards, each the card of the entry at its position |
| MoreArticles.CardOf | src/Component/ArticleSkeleton.js:398-414 | A card shows the entry's title, category and date, each exactly when that field has content, and shows the field's own value |
| MoreArticles.PanelNeverThrows | src/Component/ArticleSkeleton.js:41-66 | After any series of list loads the list holds no `null`, so the panel never throws |
| MoreArticles.LoadAll | src/Component/ArticleSkeleton.js:57-60 | With no title the list is never loaded and stays empty; a transport failure leaves the list as it was |
| Sections.RenderImage | src/Component/ArticleSkeleton.js:167-191 | An image renders exactly when its `url` has content, with that `url` as source. The alt text is `alt` when present, else "Article image", and always has content. The caption shows exactly when it has content |
| Sections.RenderVideo | src/Component/ArticleSkeleton.js:141-164 | A video renders exactly when its `embed_url` has content, embedding it; the source line shows `url` exactly when `url` has content |
| Sections.HeaderCell | src/Component/ArticleSkeleton.js:207 | A falsy header is shown as "Column " followed by its 1-based position in decimal; any other header is shown as it is |
| Sections.BodyCell | src/Component/ArticleSkeleton.js:223 | A falsy cell is shown as "-"; any other cell is shown as it is |
| Sections.RenderTable | src/Component/ArticleSkeleton.js:194-232 | A table renders nothing exactly when `headers` or `rows` lacks content. It throws exactly when both have content but `headers`, `rows` or a row is not an array. Otherwise it has one header cell per header, one row per row and one cell per row entry, with the fallbacks applied |
| Sections.TableShowsInput | src/Component/ArticleSkeleton.js:202-225 | A rendered table shows its input except at falsy headers and cells, which get the fallbacks; a table with no falsy header or cell shows exactly its input |
| Sections.TableFallbackExample | src/Component/ArticleSkeleton.js:223 | An empty-string cell is shown as "-" while the other cells and the header are kept |
| Sections.RenderCta | src/Component/ArticleSkeleton.js:235-250 | A button renders exactly when `text` and `link` both have content. Its target falls back to "_self", and `rel` is set, to "noopener noreferrer", exactly when the target is "_blank" |
| Sections.RenderSection | src/Component/ArticleSkeleton.js:339-380 | A `null` section throws. Any other section is skipped exactly when none of its six fields has content. It throws exactly when it is `null` or its table throws. The rendered parts follow the order subtitle, paragraph, image, video, table, button |
| Sections.SectionGates | src/Component/ArticleSkeleton.js:353-377 | In a rendered section each kind appears exactly when its own gate passes: content for subtitle and paragraph; for the other kinds, the member their renderer checks, or the field is the number 0 |
| Sections.GateShowsSection | src/Component/ArticleSkeleton.js:341-377 | Any one kind whose gate passes makes a non-null section render, so the outer `hasAnyContent` test never hides a part that would show |
| Sections.SectionParts | src/Component/ArticleSkeleton.js:353-377 | Every part of a rendered section is its subtitle or paragraph as it is, the output of the renderer for its image, video, table or button, or the "0" printed for a member that is the number 0 |
| Sections.TextSlot | src/Component/ArticleSkeleton.js:354-365 | `hasContent(x) && <element>{x}</element>` shows the subtitle or paragraph value exactly when it has content |
| Sections.ObjectSlot | src/Component/ArticleSkeleton.js:368-377 | `x && render(x)` for image, video and button: a part shows exactly when the renderer's member gate passes or the value is 0; a truthy value shows the renderer's output and 0 shows "0" |
| Sections.TableSlotParts | src/Component/ArticleSkeleton.js:374 | `x && renderTable(x)`: it throws exactly when the table renderer throws, and shows the table's output or the printed "0" |
| Sections.FalsyOperand | src/Component/ArticleSkeleton.js:368-377 | Of the falsy `&&` operands React prints only the number 0, as "0" |
| Sections.EmptyWrapperExample | src/Component/ArticleSkeleton.js:341-368 | An image holding only a caption makes the section render, but as an empty wrapper |
| Sections.StrayZeroExample | src/Component/ArticleSkeleton.js:368 | `image: 0` makes the section print "0" |
| Sections.ZeroSubtitleExample | src/Component/ArticleSkeleton.js:354-358 | `subtitle: 0` is present, so it is shown inside the subtitle element, not printed bare |
| Page.RenderHeader | src/Component/ArticleSkeleton.js:291-326 | Each of title, category, date and the tag container shows exactly when its field has content, and shows that field's value; the tags are `convertTagsToArray` of `tag` and all well-formed |
| Page.EmptyTagContainerExample | src/Component/ArticleSkeleton.js:315-317 | `tag: ",,"` shows the tag container with no tag in it |
| Page.RenderAll | src/Component/ArticleSkeleton.js:339-380 | Mapping the sections throws exactly when some section throws; otherwise there is one view per section, each that section's render |
| Page.RenderContent | src/Component/ArticleSkeleton.js:337-386 | Content without a positive length shows "No content available". Content with a positive length never does: if it is not an array it throws; if it is an array it throws exactly when some section throws, and otherwise shows one view per section, each that section's render |
| Page.LengthPositive | src/Component/ArticleSkeleton.js:338 | `content?.length > 0`: `null`, booleans and numbers never pass; a string passes exactly when it is non-empty (and `.map` then throws); an array passes exactly when it has content |
| Page.ContentExample | src/Component/ArticleSkeleton.js:338-380 | A section with only a subtitle renders that subtitle; a section with only a blank paragraph is skipped |
| Page.ArticleLink | src/Component/ArticleSkeleton.js:109-113 | A falsy title opens nothing, a truthy non-string title throws on `trim`, and a non-empty string opens "/techblog/?=" followed by the encoded trimmed title |
| Page.LinkIgnoresPadding | src/Component/ArticleSkeleton.js:111-112 | White space around a non-empty title never changes the link it opens (a title of only white space is truthy and opens the path with the encoded empty string) |
| Subscribe.OnReply | src/Component/ArticleSkeleton.js:94-106 | A reply whose `status_code` is 200 shows "Subscribed" and clears the input; anything else shows "Subscribe", keeps the input and alerts |
| Subscribe.OnSubmit | src/Component/ArticleSkeleton.js:76-81 | Submitting posts exactly when the input is not blank, posting it as typed and showing "Subscribing..."; blank input only alerts and changes nothing |
| Subscribe.StepAsWritten | src/Component/ArticleSkeleton.js:429-447 | As written, a click on the disabled button does nothing; any request posts the typed input and shows "Subscribing..."; the label stays one of the three labels |
| Subscribe.EnterResubmitsWhileInFlight | src/Component/ArticleSkeleton.js:435-443 | As written, Enter while "Subscribing..." is shown posts the same address again |
| Subscribe.Step | src/Component/ArticleSkeleton.js:75-107 | No request is posted while one is in flight. A request carries the non-blank input as typed and shows "Subscribing...". A blank submission changes nothing. The label stays one of the three labels |
| Subscribe.StepAgreesOutsideInFlight | src/Component/ArticleSkeleton.js:441-443 | The corrected step differs from the page as written only for a submission while sending |
| Subscribe.SubscribeRound | src/Component/ArticleSkeleton.js:75-107 | From a state that is not sending: blank input alerts and changes nothing; otherwise the input is posted and the reply leaves "Subscribed" with an empty input or "Subscribe" with the input kept |
| Subscribe.Run | src/Component/ArticleSkeleton.js:9-10 | A run starts from label "Subscribe" and an empty input, and typing sets the input to the typed text |
| Subscribe.RunKeepsValidStatus | src/Component/ArticleSkeleton.js:9 | After any series of events, on the page as written and on the corrected step, the button label is "Subscribe", "Subscribing..." or "Subscribed" |

## Left out

- The two `axios` requests and `useEffect` scheduling are left out. Responses are
  parameters (`Fetch`, `Reply`), and the loading and error screens
  (lines 252-279) are not modelled.
- The page's `title` is not read from the query string (`URLSearchParams`).
  It is a parameter.
- `encodeURIComponent` is a parameter `encode` of `Page.ArticleLink`.
  `window.open` is not modelled.
- `alert` is modelled as an effect carrying its message; `console` output and
  `window.location.reload` are not modelled.
- `formatDate` is not modelled: it needs locale-dependent date formatting.
  The date is kept as the raw JSON value.
- React's conversion of values to text is not modelled. This includes an
  object child, which makes React throw. Render parts keep the raw JSON value.
- CSS classes, keys and element attributes that do not depend on the data are
  left out.
- Numbers are mathematical reals. `NaN` cannot come from JSON, and `-0` is
  not distinguished from `0`. An out-of-range numeral such as `1e400` parses
  to `Infinity`; the model stands it in as a large real, which every test the
  page makes (falsiness, `hasContent`, `=== 200`, `> 0`) treats alike.
- Strings are sequences of Unicode scalar values, not UTF-16 code units. The
  page uses strings only for emptiness, trimming, equality
  (`item.title !== titleToRemove`, `cta.target === "_blank"`) and splitting
  on ","; all of these give the same answers on either representation.
- Objects are assumed to have distinct keys, and `Json.Get` reads the first
  binding of a key.
- A `null` response body for the article (`respData.data` on `null`) is not
  modelled; the heading block and content area take `respData.data` as input.
- The order in which two concurrent list loads settle is not modelled.
  `MoreArticles.LoadAll` applies loads in the order given.
- Page.LengthPositive: an object's `length` member counts only when it is a
  positive number or `true`. JavaScript would also coerce a numeric string or
  a one-element array to compare it with 0.

## Findings

| source | as written | input that shows it | evidently intended | confidence | as-written member | corrected member |
|---|---|---|---|---|---|---|
| src/Component/ArticleSkeleton.js:435-443 | The button is disabled while "Subscribing..." is shown, but the input's Enter handler calls `onSubscribe` without checking the label | Label "Subscribing...", input "a@b.c", Enter pressed before the reply arrives: the same address is posted a second time | No second request while one is in flight, as the disabled button intends | medium; not executed | Subscribe.EnterResubmitsWhileInFlight | Subscribe.Step |

=== FILE: json.dfy ===
/**
 The JSON payload the article page receives, JavaScript property reads and
 truthiness on it, and the presence predicate `hasContent` that gates every
 conditional render on the page.
 */
module Json {
  import opened Text

  /** A parsed JSON value. `Null` stands for both `null` and `undefined`: a
      missing key reads as `Null`. Object members keep their source order. */
  datatype Json =
    | Null
    | Bool(b: bool)
    | Num(n: real)
    | Str(s: string)
    | Arr(items: seq<Json>)
    | Obj(fields: seq<(string, Json)>)

  datatype Option<T> = None | Some(value: T)

  /** The exceptions the page's code can raise on unexpected payloads. */
  datatype JsError =
    | NotAFunction(callee: string)  // e.g. `headers.map` on a value that is not an array
    | ReadOfNull(property: string)  // a property read on `null`

  /** The result of JavaScript code that may throw. */
  datatype Outcome<T> = Ok(value: T) | Threw(error: JsError)

  /** The value of the first binding of `key`, or `undefined` when there is none. */
  function Lookup(fields: seq<(string, Json)>, key: string): (r: Json)
    ensures (forall i :: 0 <= i < |fields| ==> fields[i].0 != key) ==> r == Null
    ensures r != Null ==> exists i :: 0 <= i < |fields| && fields[i] == (key, r)
  {
    if |fields| == 0 then Null
    else if fields[0].0 == key then fields[0].1
    else
      var r := Lookup(fields[1..], key);
      assert r != Null ==> exists i :: 0 <= i < |fields[1..]| && fields[1..][i] == (key, r);
      r
  }

  /** `v.key` and `v?.key`: a member of an object; anything else has no such
      member and reads as `undefined`. */
  function Get(v: Json, key: string): (r: Json)
    ensures r != Null ==> v.Obj? && exists i :: 0 <= i < |v.fields| && v.fields[i] == (key, r)
    ensures v.Obj? && (forall i :: 0 <= i < |v.fields| ==> v.fields[i].0 != key) ==> r == Null
  {
    if v.Obj? then Lookup(v.fields, key) else Null
  }

  /** Position `i` holds the first binding of `key`. */
  predicate FirstBinding(fields: seq<(string, Json)>, key: string, i: int) {
    0 <= i < |fields| && fields[i].0 == key && forall j :: 0 <= j < i ==> fields[j].0 != key
  }

  lemma {:induction false} LookupFirstBinding(fields: seq<(string, Json)>, key: string, i: int)
    requires FirstBinding(fields, key, i)
    ensures Lookup(fields, key) == fields[i].1
    decreases |fields|
  {
    if i > 0 {
      assert fields[0].0 != key;
      assert FirstBinding(fields[1..], key, i - 1) by {
        forall j | 0 <= j < i - 1 ensures fields[1..][j].0 != key {
          assert fields[1..][j] == fields[j + 1];
        }
      }
      LookupFirstBinding(fields[1..], key, i - 1);
    }
  }

  /** Reading a key an object binds gives the value bound to it (its first
      binding, the only one in an object with distinct keys). */
  lemma GetFirstBinding(v: Json, key: string, i: int)
    requires v.Obj? && FirstBinding(v.fields, key, i)
    ensures Get(v, key) == v.fields[i].1
  {
    LookupFirstBinding(v.fields, key, i);
  }

  /** JavaScript's falsy values among JSON values: null/undefined, false, 0 and "". */
  predicate Falsy(v: Json)
    ensures Falsy(v) ==> !v.Arr? && !v.Obj?
  {
    v == Null || v == Bool(false) || v == Num(0.0) || v == Str("")
  }

  /** `hasContent`: null is absent, a string is present when something other
      than white space is left after trimming, an array when it is non-empty,
      an object when one of its values is present, and any other scalar always. */
  predicate HasContent(v: Json) {
    match v
    case Null => false
    case Str(s) => |Trim(s)| > 0
    case Arr(xs) => |xs| > 0
    case Obj(fs) => exists i | 0 <= i < |fs| :: HasContent(fs[i].1)
    case Bool(_) => true
    case Num(_) => true
  }

  /** `hasContent(v) && ...v...`: the value itself when present, nothing otherwise. */
  function IfPresent(v: Json): (r: Option<Json>)
    ensures r.Some? <==> HasContent(v)
    ensures r.Some? ==> r.value == v
  {
    if HasContent(v) then Some(v) else None
  }

  /** A string is present exactly when it has a character that is not white space. */
  lemma StringContent(s: string)
    ensures HasContent(Str(s)) <==> exists i :: 0 <= i < |s| && !IsWhitespace(s[i])
  {
  }

  /** The two falsy values `hasContent` still counts as present. */
  lemma FalsyYetPresent(v: Json)
    ensures Falsy(v) && HasContent(v) <==> v == Bool(false) || v == Num(0.0)
  {
    assert Trim("") == "";
  }

  /** A present member makes its object present. */
  lemma {:induction false} MemberContent(v: Json, key: string)
    ensures HasContent(Get(v, key)) ==> HasContent(v)
  {
    var r := Get(v, key);
    if HasContent(r) {
      var i :| 0 <= i < |v.fields| && v.fields[i] == (key, r);
      assert HasContent(v.fields[i].1);
    }
  }

  // An independent description of presence: a non-object "leaf" reached by
  // descending through object members only.

  /** The value reached from `v` by following member positions `path`. */
  function At(v: Json, path: seq<nat>): Option<Json>
    decreases |path|
  {
    if |path| == 0 then Some(v)
    else if v.Obj? && path[0] < |v.fields| then At(v.fields[path[0]].1, path[1..])
    else None
  }

  /** A non-object value that counts as present on its own. */
  predicate LeafPresent(v: Json) {
    match v
    case Null => false
    case Str(s) => exists i :: 0 <= i < |s| && !IsWhitespace(s[i])
    case Arr(xs) => |xs| > 0
    case Obj(_) => false
    case Bool(_) => true
    case Num(_) => true
  }

  ghost predicate PresentLeafAt(v: Json, path: seq<nat>) {
    At(v, path).Some? && LeafPresent(At(v, path).value)
  }

  /** `hasContent(v)` holds exactly when some path through objects reaches a
      present leaf: recursion into objects neither misses nor invents content. */
  lemma {:induction false} ContentIsPresentLeaf(v: Json)
    ensures HasContent(v) <==> exists path :: PresentLeafAt(v, path)
  {
    if HasContent(v) {
      var p := PresentPathOf(v);
      assert PresentLeafAt(v, p);
    }
    if exists path :: PresentLeafAt(v, path) {
      var p :| PresentLeafAt(v, p);
      PresentPathGivesContent(v, p);
    }
  }

  lemma {:induction false} PresentPathOf(v: Json) returns (path: seq<nat>)
    requires HasContent(v)
    ensures PresentLeafAt(v, path)
  {
    match v
    case Obj(fs) =>
      var i :| 0 <= i < |fs| && HasContent(fs[i].1);
      var p := PresentPathOf(fs[i].1);
      path := [i] + p;
      assert path[1..] == p;
    case Str(s) =>
      StringContent(s);
      path := [];
    case _ =>
      path := [];
  }

  lemma {:induction false} PresentPathGivesContent(v: Json, path: seq<nat>)
    requires PresentLeafAt(v, path)
    ensures HasContent(v)
    decreases |path|
  {
    if |path| == 0 {
      if v.Str? { StringContent(v.s); }
    } else {
      var i := path[0];
      PresentPathGivesContent(v.fields[i].1, path[1..]);
    }
  }
}

=== FILE: more_articles.dfy ===
/**
 The "More Articles" panel: `removeObjectByTitle` drops the current article
 from the full list and reverses the rest, the list-loading effect keeps the
 previous list when anything goes wrong, and the page shows at most
 `MAX_MORE_ARTICLES` cards.
 */
module MoreArticles {
  import opened Json

  /** `MAX_MORE_ARTICLES`. */
  const MaxMoreArticles: nat := 4

  /** `item.title === title` for a non-null item. */
  predicate TitleIs(item: Json, title: string) {
    Get(item, "title") == Str(title)
  }

  /** `items.filter(item => item.title !== title)`. */
  function KeepOthers(items: seq<Json>, title: string): seq<Json> {
    if |items| == 0 then []
    else (if TitleIs(items[0], title) then [] else [items[0]]) + KeepOthers(items[1..], title)
  }

  function CountTitled(items: seq<Json>, title: string): nat {
    if |items| == 0 then 0
    else (if TitleIs(items[0], title) then 1 else 0) + CountTitled(items[1..], title)
  }

  /** `Array.prototype.reverse`. */
  function Reverse<T>(s: seq<T>): (r: seq<T>)
    ensures |r| == |s|
    ensures forall i :: 0 <= i < |s| ==> r[i] == s[|s| - 1 - i]
  {
    if |s| == 0 then [] else Reverse(s[1..]) + [s[0]]
  }

  lemma ReverseReverse<T>(s: seq<T>)
    ensures Reverse(Reverse(s)) == s
  {
    var rr := Reverse(Reverse(s));
    assert forall i :: 0 <= i < |s| ==> rr[i] == s[i];
  }

  /** `a` is `b` with some elements deleted, the rest in their original order. */
  predicate IsSubsequence<T(==)>(a: seq<T>, b: seq<T>)
    decreases |b|
  {
    if |a| == 0 then true
    else if |b| == 0 then false
    else if a[0] == b[0] then IsSubsequence(a[1..], b[1..])
    else IsSubsequence(a, b[1..])
  }

  /** Filtering keeps exactly the items whose title differs, in input order,
      and drops one item per match. */
  lemma {:induction false} KeepOthersSpec(items: seq<Json>, title: string)
    ensures forall x :: x in KeepOthers(items, title) <==> x in items && !TitleIs(x, title)
    ensures IsSubsequence(KeepOthers(items, title), items)
    ensures |KeepOthers(items, title)| == |items| - CountTitled(items, title)
  {
    if |items| > 0 {
      KeepOthersSpec(items[1..], title);
      var rest := KeepOthers(items[1..], title);
      if TitleIs(items[0], title) {
        assert KeepOthers(items, title) == rest;
        assert forall x :: x in items <==> x == items[0] || x in items[1..] by {
          assert items == [items[0]] + items[1..];
        }
        SubsequenceOfTail(rest, items);
      } else {
        var r := KeepOthers(items, title);
        assert r == [items[0]] + rest;
        assert r[1..] == rest;
        assert forall x :: x in items <==> x == items[0] || x in items[1..] by {
          assert items == [items[0]] + items[1..];
        }
      }
    }
  }

  /** A subsequence of the tail is a subsequence of the whole. */
  lemma {:induction false} SubsequenceOfTail<T>(a: seq<T>, b: seq<T>)
    requires |b| > 0 && IsSubsequence(a, b[1..])
    ensures IsSubsequence(a, b)
    decreases |b|, 0
  {
    if |a| > 0 && a[0] == b[0] {
      SubsequenceDropHead(a, b[1..]);
    }
  }

  /** Deleting the first element keeps a subsequence a subsequence. */
  lemma {:induction false} SubsequenceDropHead<T>(a: seq<T>, b: seq<T>)
    requires |a| > 0 && IsSubsequence(a, b)
    ensures IsSubsequence(a[1..], b)
    decreases |b|, 1
  {
    if |a[1..]| > 0 {
      if a[0] == b[0] {
        SubsequenceOfTail(a[1..], b);
      } else {
        SubsequenceDropHead(a, b[1..]);
        SubsequenceOfTail(a[1..], b);
      }
    }
  }

  /** `removeObjectByTitle(array, titleToRemove)`. A non-array gives `[]`; a
      `null` entry makes the `item.title` read throw; otherwise the entries whose
      title differs, in reverse order. */
  function RemoveObjectByTitle(list: Json, title: string): (r: Outcome<seq<Json>>)
    ensures !list.Arr? ==> r == Ok([])
    ensures list.Arr? ==> (r.Threw? <==> Null in list.items)
    ensures r.Ok? ==> forall i :: 0 <= i < |r.value| ==> r.value[i] != Null && !TitleIs(r.value[i], title)
    ensures r.Ok? && list.Arr? ==> |r.value| == |list.items| - CountTitled(list.items, title)
  {
    if !list.Arr? then Ok([])
    else if Null in list.items then Threw(ReadOfNull("title"))
    else
      var kept := KeepOthers(list.items, title);
      KeepOthersSpec(list.items, title);
      assert forall i :: 0 <= i < |kept| ==> kept[i] in list.items && !TitleIs(kept[i], title);
      Ok(Reverse(kept))
  }

  /** Reversing keeps the same elements. */
  lemma ReverseMembers<T>(s: seq<T>)
    ensures forall x :: x in Reverse(s) <==> x in s
  {
    var r := Reverse(s);
    forall x ensures x in r <==> x in s {
      if x in r {
        var i :| 0 <= i < |r| && r[i] == x;
        assert s[|s| - 1 - i] == x;
      }
      if x in s {
        var j :| 0 <= j < |s| && s[j] == x;
        assert r[|s| - 1 - j] == x;
      }
    }
  }

  /** The derived list is the reverse of an order-preserving selection of the
      input that holds every entry with a different title and no other. */
  lemma RemoveIsReversedSelection(list: Json, title: string)
    requires RemoveObjectByTitle(list, title).Ok? && list.Arr?
    ensures var r := RemoveObjectByTitle(list, title).value;
      && IsSubsequence(Reverse(r), list.items)
      && forall x :: x in r <==> x in list.items && !TitleIs(x, title)
  {
    var kept := KeepOthers(list.items, title);
    assert RemoveObjectByTitle(list, title).value == Reverse(kept);
    KeepOthersSpec(list.items, title);
    ReverseReverse(kept);
    ReverseMembers(kept);
  }

  /** The outcome of the request for the full article list. */
  datatype Fetch = Responded(body: Json) | TransportFailed

  /** The list-loading effect: with a non-empty title it requests every article
      and replaces the list with `removeObjectByTitle(resp.data.data, title)`;
      any failure, including a throw in that code, leaves the list as it was. */
  function AfterListLoad(current: seq<Json>, title: string, fetch: Fetch): (r: seq<Json>)
    ensures r == current || (fetch.Responded? && RemoveObjectByTitle(Get(fetch.body, "data"), title) == Ok(r))
    ensures |title| == 0 || fetch.TransportFailed? ==> r == current
    ensures |title| > 0 && fetch.Responded? && fetch.body == Null ==> r == current
    ensures |title| > 0 && fetch.Responded? && fetch.body != Null ==>
      match RemoveObjectByTitle(Get(fetch.body, "data"), title)
      case Ok(list) => r == list
      case Threw(_) => r == current
    ensures Null !in current ==> Null !in r
  {
    if |title| == 0 then current
    else match fetch
      case TransportFailed => current
      case Responded(body) =>
        if body == Null then current
        else match RemoveObjectByTitle(Get(body, "data"), title)
          case Threw(_) => current
          case Ok(list) =>
            assert forall i :: 0 <= i < |list| ==> list[i] != Null;
            list
  }

  /** `moreNewsletter.slice(0, MAX_MORE_ARTICLES)`. */
  function Shown(more: seq<Json>): (r: seq<Json>)
    ensures |r| == if |more| < MaxMoreArticles then |more| else MaxMoreArticles
    ensures r == more[..|r|]
  {
    if |more| < MaxMoreArticles then more else more[..MaxMoreArticles]
  }

  /** One card of the panel; a part is shown only when the item's field has
      content. The date is shown through `formatDate`, which is not modelled. */
  datatype Card = Card(title: Option<Json>, category: Option<Json>, date: Option<Json>)

  function CardOf(item: Json): (c: Card)
    ensures c.title.Some? <==> HasContent(Get(item, "title"))
    ensures c.category.Some? <==> HasContent(Get(item, "category"))
    ensures c.date.Some? <==> HasContent(Get(item, "date"))
    ensures c.title.Some? ==> c.title.value == Get(item, "title")
    ensures c.category.Some? ==> c.category.value == Get(item, "category")
    ensures c.date.Some? ==> c.date.value == Get(item, "date")
  {
    Card(IfPresent(Get(item, "title")), IfPresent(Get(item, "category")), IfPresent(Get(item, "date")))
  }

  /** The panel: nothing when the list is empty, otherwise one card per shown
      item; reading `item.title` of a `null` item throws. */
  function MorePanel(more: seq<Json>): (r: Outcome<Option<seq<Card>>>)
    ensures r.Threw? <==> Null in Shown(more)
    ensures r.Ok? ==> (r.value.None? <==> |more| == 0)
    ensures r.Ok? && r.value.Some? ==>
      && |r.value.value| == |Shown(more)| <= MaxMoreArticles
      && forall i :: 0 <= i < |r.value.value| ==> r.value.value[i] == CardOf(more[i])
  {
    if |more| == 0 then Ok(None)
    else
      var shown := Shown(more);
      if Null in shown then Threw(ReadOfNull("title"))
      else Ok(Some(seq(|shown|, i requires 0 <= i < |shown| => CardOf(shown[i]))))
  }

  /** The list after a series of loads, starting from the initial empty list. */
  function LoadAll(title: string, fetches: seq<Fetch>): (r: seq<Json>)
    ensures |title| == 0 ==> r == []
    ensures |fetches| > 0 && fetches[|fetches| - 1].TransportFailed? ==> r == LoadAll(title, fetches[..|fetches| - 1])
    decreases |fetches|
  {
    if |fetches| == 0 then []
    else AfterListLoad(LoadAll(title, fetches[..|fetches| - 1]), title, fetches[|fetches| - 1])
  }

  /** Whatever the server sends, the panel never throws: every list the page
      can hold is free of `null` entries. */
  lemma {:induction false} PanelNeverThrows(title: string, fetches: seq<Fetch>)
    ensures Null !in LoadAll(title, fetches)
    ensures MorePanel(LoadAll(title, fetches)).Ok?
    decreases |fetches|
  {
    if |fetches| > 0 {
      PanelNeverThrows(title, fetches[..|fetches| - 1]);
    }
    var more := LoadAll(title, fetches);
    assert forall x :: x in Shown(more) ==> x in more;
  }
}

=== FILE: page.dfy ===
/**
 The article page around the sections: the heading block (title, category,
 date, tags), the content area that maps every section of `data.content`, and
 the link a "More Articles" card opens.
 */
module Page {
  import opened Text
  import opened Json
  import opened Tags
  import opened Sections

  /** The heading block; each line shows only when its field has content. The
      date is shown through `formatDate`, which is not modelled. */
  datatype Header = Header(title: Option<Json>, category: Option<Json>, date: Option<Json>, tags: Option<seq<string>>)

  /** The heading block of article `data`. The tag container is gated on the raw
      `tag` field, so it may show with no tag in it. */
  function RenderHeader(data: Json): (r: Header)
    ensures r.title.Some? <==> HasContent(Get(data, "title"))
    ensures r.category.Some? <==> HasContent(Get(data, "category"))
    ensures r.date.Some? <==> HasContent(Get(data, "date"))
    ensures r.tags.Some? <==> HasContent(Get(data, "tag"))
    ensures r.tags.Some? ==> r.tags.value == ConvertTagsToArray(Get(data, "tag"))
    ensures r.tags.Some? ==> forall i :: 0 <= i < |r.tags.value| ==> WellFormedTag(r.tags.value[i])
    ensures r.title.Some? ==> r.title.value == Get(data, "title")
    ensures r.category.Some? ==> r.category.value == Get(data, "category")
    ensures r.date.Some? ==> r.date.value == Get(data, "date")
  {
    var tag := Get(data, "tag");
    Header(IfPresent(Get(data, "title")), IfPresent(Get(data, "category")), IfPresent(Get(data, "date")),
           if HasContent(tag) then Some(ConvertTagsToArray(tag)) else None)
  }

  /** `tag: ",,"` has content, so the tag container shows, but it holds no tag. */
  lemma EmptyTagContainerExample()
    ensures RenderHeader(Obj([("tag", Str(",,"))])).tags == Some([])
  {
    var data := Obj([("tag", Str(",,"))]);
    assert Get(data, "tag") == Str(",,");
    assert HasContent(Str(",,")) by {
      StringContent(",,");
      assert !IsWhitespace(",,"[0]);
    }
    assert Split(",,", ',') == ["", "", ""] by {
      assert ",," == "" + [','] + ",";
      SplitAfterPiece("", ',', ",");
      assert "," == "" + [','] + "";
      SplitAfterPiece("", ',', "");
    }
    assert Trim("") == "";
    assert CleanPieces(["", "", ""]) == [];
  }

  /** `content?.length > 0`. An object's own `length` member counts when it is a
      positive number or `true`. */
  predicate LengthPositive(content: Json)
    ensures content == Null || content.Bool? || content.Num? ==> !LengthPositive(content)
    ensures content.Arr? ==> (LengthPositive(content) <==> HasContent(content))
    ensures content.Str? ==> (LengthPositive(content) <==> |content.s| > 0)
  {
    match content
    case Arr(xs) => |xs| > 0
    case Str(s) => |s| > 0
    case Obj(_) =>
      var n := Get(content, "length");
      (n.Num? && n.n > 0.0) || n == Bool(true)
    case _ => false
  }

  /** The content area: "No content available" unless `content` has a positive
      length, otherwise one entry per section (`None` for a skipped section). */
  datatype ContentView = NoContent | SectionList(views: seq<Option<seq<Part>>>)

  /** `content.map(section => ...)`: throws as soon as one section throws. */
  function RenderAll(sections: seq<Json>): (r: Outcome<seq<Option<seq<Part>>>>)
    ensures r.Threw? <==> exists i :: 0 <= i < |sections| && RenderSection(sections[i]).Threw?
    ensures r.Ok? ==> |r.value| == |sections|
    ensures r.Ok? ==> forall i :: 0 <= i < |sections| ==> Ok(r.value[i]) == RenderSection(sections[i])
  {
    if |sections| == 0 then Ok([])
    else match RenderSection(sections[0])
      case Threw(e) => Threw(e)
      case Ok(first) =>
        match RenderAll(sections[1..])
        case Threw(e) =>
          assert exists i :: 0 <= i < |sections[1..]| && RenderSection(sections[1..][i]).Threw?;
          Threw(e)
        case Ok(rest) =>
          assert forall i :: 1 <= i < |sections| ==> sections[i] == sections[1..][i - 1];
          Ok([first] + rest)
  }

  /** The content area of article `data`: a non-array `content` with a positive
      length throws on `.map`; a section is skipped exactly when none of its six
      kinds has content. */
  function RenderContent(data: Json): (r: Outcome<ContentView>)
    ensures !LengthPositive(Get(data, "content")) ==> r == Ok(NoContent)
    ensures LengthPositive(Get(data, "content")) && !Get(data, "content").Arr? ==> r.Threw?
    ensures LengthPositive(Get(data, "content")) ==> r != Ok(NoContent)
    ensures LengthPositive(Get(data, "content")) && Get(data, "content").Arr? ==>
      && (r.Threw? <==> RenderAll(Get(data, "content").items).Threw?)
      && (r.Ok? ==> r.value == SectionList(RenderAll(Get(data, "content").items).value))
    ensures r.Ok? && r.value.SectionList? ==>
      var sections := Get(data, "content").items;
      && |r.value.views| == |sections| > 0
      && forall i :: 0 <= i < |sections| && sections[i] != Null ==>
           (r.value.views[i].None? <==> !AnyContent(sections[i]))
  {
    var content := Get(data, "content");
    if !LengthPositive(content) then Ok(NoContent)
    else if !content.Arr? then Threw(NotAFunction("content.map"))
    else match RenderAll(content.items)
      case Threw(e) => Threw(e)
      case Ok(views) => Ok(SectionList(views))
  }

  /** `content: [{subtitle: "S1"}, {paragraph: ""}]` renders one section holding
      only the subtitle; the second section is skipped. */
  lemma ContentExample()
    ensures var first := Obj([("subtitle", Str("S1"))]);
      var second := Obj([("paragraph", Str(""))]);
      RenderContent(Obj([("content", Arr([first, second]))])) == Ok(SectionList([Some([Heading(Str("S1"))]), None]))
  {
    var first := Obj([("subtitle", Str("S1"))]);
    var second := Obj([("paragraph", Str(""))]);
    var data := Obj([("content", Arr([first, second]))]);
    assert Get(data, "content") == Arr([first, second]);
    SubtitleOnly();
    BlankParagraphOnly();
    TwoSections(first, second, Some([Heading(Str("S1"))]), None);
  }

  lemma TwoSections(first: Json, second: Json, v1: Option<seq<Part>>, v2: Option<seq<Part>>)
    requires RenderSection(first) == Ok(v1) && RenderSection(second) == Ok(v2)
    ensures RenderAll([first, second]) == Ok([v1, v2])
  {
    var sections := [first, second];
    var r := RenderAll(sections);
    assert r.Ok? by {
      forall i | 0 <= i < |sections| ensures RenderSection(sections[i]).Ok? {
        assert sections[i] == first || sections[i] == second;
      }
    }
    assert Ok(r.value[0]) == RenderSection(sections[0]);
    assert Ok(r.value[1]) == RenderSection(sections[1]);
    assert r.value == [v1, v2];
  }

  lemma SubtitleOnly()
    ensures RenderSection(Obj([("subtitle", Str("S1"))])) == Ok(Some([Heading(Str("S1"))]))
  {
    var first := Obj([("subtitle", Str("S1"))]);
    assert Get(first, "subtitle") == Str("S1");
    assert HasContent(Str("S1")) by { StringContent("S1"); assert !IsWhitespace("S1"[0]); }
    assert Get(first, "paragraph") == Null by { assert "subtitle" != "paragraph"; }
    assert Get(first, "image") == Null by { assert "subtitle" != "image"; }
    assert Get(first, "video") == Null by { assert "subtitle" != "video"; }
    assert Get(first, "table") == Null by { assert "subtitle" != "table"; }
    assert Get(first, "cta") == Null by { assert "subtitle" != "cta"; }
    assert TableSlotParts(Null) == Ok([]);
    assert Assemble([Heading(Str("S1"))], [], [], [], [], []) == [Heading(Str("S1"))];
  }

  lemma BlankParagraphOnly()
    ensures RenderSection(Obj([("paragraph", Str(""))])) == Ok(None)
  {
    var second := Obj([("paragraph", Str(""))]);
    assert Get(second, "paragraph") == Str("");
    assert Trim("") == "";
    assert Get(second, "subtitle") == Null by { assert "paragraph" != "subtitle"; }
    assert Get(second, "image") == Null by { assert "paragraph" != "image"; }
    assert Get(second, "video") == Null by { assert "paragraph" != "video"; }
    assert Get(second, "table") == Null by { assert "paragraph" != "table"; }
    assert Get(second, "cta") == Null by { assert "paragraph" != "cta"; }
  }

  /** The path of the article page; the title follows as the query's unnamed parameter. */
  const ArticlePath := "/techblog/?="

  /** `onClickArticle(title)`: nothing for a falsy title, a throw for a non-string
      (it has no `trim`), else the article path with the trimmed title passed
      through the URL encoder `encode`. */
  function ArticleLink(title: Json, encode: string -> string): (r: Outcome<Option<string>>)
    ensures Falsy(title) ==> r == Ok(None)
    ensures !Falsy(title) && !title.Str? ==> r.Threw?
    ensures title.Str? && title.s != "" ==> r == Ok(Some(ArticlePath + encode(Trim(title.s))))
  {
    if Falsy(title) then Ok(None)
    else if !title.Str? then Threw(NotAFunction("trim"))
    else Ok(Some(ArticlePath + encode(Trim(title.s))))
  }

  /** White space around a non-empty title never changes the link it opens. */
  lemma LinkIgnoresPadding(w1: string, t: string, w2: string, encode: string -> string)
    requires AllWhitespace(w1) && AllWhitespace(w2) && IsTrimmed(t) && |t| > 0
    ensures ArticleLink(Str(w1 + t + w2), encode) == ArticleLink(Str(t), encode)
  {
    TrimPadded(w1, t, w2);
    TrimPadded("", t, "");
    assert "" + t + "" == t;
  }
}

=== FILE: sections.dfy ===
/**
 The renderers for one content section of an article (`renderImage`,
 `renderVideo`, `renderTable`, `renderCTA`) and the per-section dispatch of
 the content map. Markup is abstracted to a list of render parts; a part keeps
 the raw JSON value React would print.
 */
module Sections {
  import opened Text
  import opened Json

  /** The six kinds of content a section may hold, in render order. */
  datatype Slot = SubtitleSlot | ParagraphSlot | ImageSlot | VideoSlot | TableSlot | CtaSlot

  function Rank(k: Slot): nat {
    match k
    case SubtitleSlot => 0
    case ParagraphSlot => 1
    case ImageSlot => 2
    case VideoSlot => 3
    case TableSlot => 4
    case CtaSlot => 5
  }

  /** What a section renders inside its wrapper. */
  datatype Part =
    | Heading(text: Json)                                      // <h2>{subtitle}</h2>
    | Prose(text: Json)                                        // <p>{paragraph}</p>
    | Picture(src: Json, alt: Json, caption: Option<Json>)     // <img> and optional caption
    | Embed(src: Json, source: Option<Json>)                   // <iframe> and optional "Source:" line
    | Grid(headers: seq<Json>, rows: seq<seq<Json>>)           // <table>
    | Button(href: Json, target: Json, rel: Option<string>, text: Json)  // <a>
    | Stray(slot: Slot, printed: string)                       // a falsy `&&` operand React prints

  function SlotOf(p: Part): Slot {
    match p
    case Heading(_) => SubtitleSlot
    case Prose(_) => ParagraphSlot
    case Picture(_, _, _) => ImageSlot
    case Embed(_, _) => VideoSlot
    case Grid(_, _) => TableSlot
    case Button(_, _, _, _) => CtaSlot
    case Stray(k, _) => k
  }

  const ImageAltFallback := "Article image"
  const CellFallback := "-"
  const CtaTargetFallback := "_self"
  const NewTabTarget := "_blank"
  const NewTabRel := "noopener noreferrer"

  /** `renderImage(image)`: only an image with a present `url` renders; the alt
      text falls back to "Article image" and the caption shows only if present. */
  function RenderImage(image: Json): (r: Option<Part>)
    ensures r.Some? <==> HasContent(Get(image, "url"))
    ensures r.Some? ==> r.value.Picture? && r.value.src == Get(image, "url")
    ensures r.Some? ==> r.value.alt == (if HasContent(Get(image, "alt")) then Get(image, "alt") else Str(ImageAltFallback))
    ensures r.Some? ==> HasContent(r.value.alt)
    ensures r.Some? ==> (r.value.caption.Some? <==> HasContent(Get(image, "caption")))
    ensures r.Some? && r.value.caption.Some? ==> r.value.caption.value == Get(image, "caption")
  {
    MemberContent(image, "url");
    assert HasContent(Str(ImageAltFallback)) by { assert ImageAltFallback[0] == 'A'; }
    if !HasContent(image) || !HasContent(Get(image, "url")) then None
    else
      var alt := Get(image, "alt");
      var caption := Get(image, "caption");
      Some(Picture(Get(image, "url"),
                   if HasContent(alt) then alt else Str(ImageAltFallback),
                   if HasContent(caption) then Some(caption) else None))
  }

  /** `renderVideo(video)`: only a video with a present `embed_url` renders;
      the "Source:" line shows only if `url` is present. */
  function RenderVideo(video: Json): (r: Option<Part>)
    ensures r.Some? <==> HasContent(Get(video, "embed_url"))
    ensures r.Some? ==> r.value.Embed? && r.value.src == Get(video, "embed_url")
    ensures r.Some? ==> (r.value.source.Some? <==> HasContent(Get(video, "url")))
    ensures r.Some? && r.value.source.Some? ==> r.value.source.value == Get(video, "url")
  {
    MemberContent(video, "embed_url");
    if !HasContent(video) || !HasContent(Get(video, "embed_url")) then None
    else
      var url := Get(video, "url");
      Some(Embed(Get(video, "embed_url"), if HasContent(url) then Some(url) else None))
  }

  /** `{header || "Column " + (index + 1)}`. */
  function HeaderCell(header: Json, index: nat): (r: Json)
    ensures !Falsy(r)
    ensures !Falsy(header) ==> r == header
    ensures Falsy(header) ==> r == Str("Column " + NatToString(index + 1))
  {
    if Falsy(header) then Str("Column " + NatToString(index + 1)) else header
  }

  /** `{cell || "-"}`. */
  function BodyCell(cell: Json): (r: Json)
    ensures !Falsy(r)
    ensures !Falsy(cell) ==> r == cell
    ensures Falsy(cell) ==> r == Str(CellFallback)
  {
    if Falsy(cell) then Str(CellFallback) else cell
  }

  predicate AllArrays(rows: seq<Json>) {
    forall i :: 0 <= i < |rows| ==> rows[i].Arr?
  }

  /** `renderTable(table)`: renders only when both `headers` and `rows` are
      present; `.map` on a `headers`, `rows` or row value that is not an array
      throws. Falsy headers and cells get their fallbacks; every other value is
      shown as it is, one header cell per header, one body row per row and one
      cell per row entry. */
  function RenderTable(table: Json): (r: Outcome<Option<Part>>)
    ensures r == Ok(None) <==> !(HasContent(Get(table, "headers")) && HasContent(Get(table, "rows")))
    ensures r.Threw? <==>
      && HasContent(Get(table, "headers")) && HasContent(Get(table, "rows"))
      && !(Get(table, "headers").Arr? && Get(table, "rows").Arr? && AllArrays(Get(table, "rows").items))
    ensures r.Ok? && r.value.Some? ==>
      var hs, rs, g := Get(table, "headers").items, Get(table, "rows").items, r.value.value;
      && g.Grid?
      && |g.headers| == |hs| > 0
      && |g.rows| == |rs| > 0
      && (forall i :: 0 <= i < |hs| ==> g.headers[i] == HeaderCell(hs[i], i))
      && (forall i :: 0 <= i < |rs| ==> rs[i].Arr? && |g.rows[i]| == |rs[i].items|)
      && (forall i, j :: 0 <= i < |rs| && 0 <= j < |g.rows[i]| ==> g.rows[i][j] == BodyCell(rs[i].items[j]))
  {
    MemberContent(table, "headers");
    var headers := Get(table, "headers");
    var rows := Get(table, "rows");
    if !HasContent(table) || !HasContent(headers) || !HasContent(rows) then Ok(None)
    else if !headers.Arr? then Threw(NotAFunction("headers.map"))
    else if !rows.Arr? then Threw(NotAFunction("rows.map"))
    else if !AllArrays(rows.items) then Threw(NotAFunction("row.map"))
    else
      var hs, rs := headers.items, rows.items;
      Ok(Some(Grid(seq(|hs|, i requires 0 <= i < |hs| => HeaderCell(hs[i], i)),
                   seq(|rs|, i requires 0 <= i < |rs| =>
                     seq(|rs[i].items|, j requires 0 <= j < |rs[i].items| => BodyCell(rs[i].items[j]))))))
  }

  /** A rendered table shows its input except at the falsy positions, which get
      the fallbacks; a table with no falsy header or cell shows exactly its input. */
  lemma TableShowsInput(table: Json)
    requires RenderTable(table).Ok? && RenderTable(table).value.Some?
    ensures var hs, rs, g := Get(table, "headers").items, Get(table, "rows").items, RenderTable(table).value.value;
      && (forall i :: 0 <= i < |hs| ==> (g.headers[i] == hs[i] <==> !Falsy(hs[i])))
      && (forall i, j :: 0 <= i < |rs| && 0 <= j < |g.rows[i]| ==>
            (g.rows[i][j] == rs[i].items[j] <==> !Falsy(rs[i].items[j])))
      && ((forall i :: 0 <= i < |hs| ==> !Falsy(hs[i])) ==> g.headers == hs)
      && (forall i :: 0 <= i < |rs| && (forall j :: 0 <= j < |rs[i].items| ==> !Falsy(rs[i].items[j])) ==>
            g.rows[i] == rs[i].items)
  {
    var hs, rs, g := Get(table, "headers").items, Get(table, "rows").items, RenderTable(table).value.value;
    forall i | 0 <= i < |rs| && (forall j :: 0 <= j < |rs[i].items| ==> !Falsy(rs[i].items[j]))
      ensures g.rows[i] == rs[i].items
    {
      assert |g.rows[i]| == |rs[i].items|;
      forall j | 0 <= j < |rs[i].items| ensures g.rows[i][j] == rs[i].items[j] {
        assert g.rows[i][j] == BodyCell(rs[i].items[j]);
      }
    }
  }

  /** `renderCTA(cta)`: renders only when both `text` and `link` are present;
      the target falls back to "_self" and `rel` is set exactly for "_blank". */
  function RenderCta(cta: Json): (r: Option<Part>)
    ensures r.Some? <==> HasContent(Get(cta, "text")) && HasContent(Get(cta, "link"))
    ensures r.Some? ==> r.value.Button? && r.value.href == Get(cta, "link") && r.value.text == Get(cta, "text")
    ensures r.Some? ==> r.value.target == (if HasContent(Get(cta, "target")) then Get(cta, "target") else Str(CtaTargetFallback))
    ensures r.Some? ==> (r.value.rel.Some? <==> r.value.target == Str(NewTabTarget))
    ensures r.Some? && r.value.rel.Some? ==> r.value.rel.value == NewTabRel
  {
    MemberContent(cta, "text");
    assert HasContent(Str(NewTabTarget)) by { assert NewTabTarget[1] == 'b'; }
    if !HasContent(cta) || !HasContent(Get(cta, "text")) || !HasContent(Get(cta, "link")) then None
    else
      var target := Get(cta, "target");
      Some(Button(Get(cta, "link"),
                  if HasContent(target) then target else Str(CtaTargetFallback),
                  if target == Str(NewTabTarget) then Some(NewTabRel) else None,
                  Get(cta, "text")))
  }

  function OptionToSeq(o: Option<Part>): (r: seq<Part>)
    ensures |r| <= 1
  {
    if o.Some? then [o.value] else []
  }

  /** What React prints for a falsy `value && ...` operand: only `0` is printed. */
  function FalsyOperand(v: Json, slot: Slot): (r: seq<Part>)
    requires Falsy(v)
    ensures |r| <= 1 && AllOfSlot(r, slot)
    ensures |r| == 1 <==> v == Num(0.0)
    ensures |r| == 1 ==> r[0] == Stray(slot, "0")
  {
    if v == Num(0.0) then [Stray(slot, "0")] else []
  }

  /** `hasContent(section.<kind>) && <element>{section.<kind>}</element>`. */
  function TextSlot(v: Json, slot: Slot): (r: seq<Part>)
    requires slot == SubtitleSlot || slot == ParagraphSlot
    ensures |r| <= 1 && AllOfSlot(r, slot)
    ensures |r| == 1 <==> HasContent(v)
    ensures |r| == 1 ==> r[0] == if slot == SubtitleSlot then Heading(v) else Prose(v)
  {
    if !HasContent(v) then []
    else if slot == SubtitleSlot then [Heading(v)]
    else [Prose(v)]
  }

  /** `section.image && renderImage(section.image)` and the same for video and CTA. */
  function ObjectSlot(v: Json, slot: Slot): (r: seq<Part>)
    requires slot == ImageSlot || slot == VideoSlot || slot == CtaSlot
    ensures |r| <= 1 && AllOfSlot(r, slot)
    ensures slot == ImageSlot ==> (|r| == 1 <==> HasContent(Get(v, "url")) || v == Num(0.0))
    ensures slot == VideoSlot ==> (|r| == 1 <==> HasContent(Get(v, "embed_url")) || v == Num(0.0))
    ensures slot == CtaSlot ==> (|r| == 1 <==> (HasContent(Get(v, "text")) && HasContent(Get(v, "link"))) || v == Num(0.0))
    ensures Falsy(v) && |r| == 1 ==> r[0] == Stray(slot, "0")
    ensures !Falsy(v) && |r| == 1 && slot == ImageSlot ==> RenderImage(v) == Some(r[0])
    ensures !Falsy(v) && |r| == 1 && slot == VideoSlot ==> RenderVideo(v) == Some(r[0])
    ensures !Falsy(v) && |r| == 1 && slot == CtaSlot ==> RenderCta(v) == Some(r[0])
  {
    if Falsy(v) then FalsyOperand(v, slot)
    else if slot == ImageSlot then OptionToSeq(RenderImage(v))
    else if slot == VideoSlot then OptionToSeq(RenderVideo(v))
    else OptionToSeq(RenderCta(v))
  }

  /** `section.table && renderTable(section.table)`. */
  function TableSlotParts(v: Json): (r: Outcome<seq<Part>>)
    ensures r.Threw? <==> RenderTable(v).Threw?
    ensures r.Ok? ==> |r.value| <= 1 && AllOfSlot(r.value, TableSlot)
    ensures r.Ok? ==> (|r.value| == 1 <==> (HasContent(Get(v, "headers")) && HasContent(Get(v, "rows"))) || v == Num(0.0))
    ensures r.Ok? && |r.value| == 1 ==>
      if Falsy(v) then r.value[0] == Stray(TableSlot, "0") else RenderTable(v) == Ok(Some(r.value[0]))
  {
    if Falsy(v) then Ok(FalsyOperand(v, TableSlot))
    else match RenderTable(v)
      case Threw(e) => Threw(e)
      case Ok(o) => Ok(OptionToSeq(o))
  }

  /** `hasAnyContent` of the content map. */
  predicate AnyContent(section: Json) {
    || HasContent(Get(section, "subtitle"))
    || HasContent(Get(section, "paragraph"))
    || HasContent(Get(section, "image"))
    || HasContent(Get(section, "video"))
    || HasContent(Get(section, "table"))
    || HasContent(Get(section, "cta"))
  }

  /** Parts strictly ordered by slot: at most one part per slot, in render order. */
  predicate InSlotOrder(ps: seq<Part>) {
    forall i, j :: 0 <= i < j < |ps| ==> Rank(SlotOf(ps[i])) < Rank(SlotOf(ps[j]))
  }

  predicate AllOfSlot(ps: seq<Part>, slot: Slot) {
    forall i :: 0 <= i < |ps| ==> SlotOf(ps[i]) == slot
  }

  predicate HasSlot(ps: seq<Part>, slot: Slot) {
    exists i :: 0 <= i < |ps| && SlotOf(ps[i]) == slot
  }

  lemma {:induction false} ConcatInSlotOrder(a: seq<Part>, b: seq<Part>, k: nat)
    requires InSlotOrder(a) && |b| <= 1
    requires forall i :: 0 <= i < |a| ==> Rank(SlotOf(a[i])) < k
    requires forall i :: 0 <= i < |b| ==> Rank(SlotOf(b[i])) == k
    ensures InSlotOrder(a + b)
    ensures forall i :: 0 <= i < |a + b| ==> Rank(SlotOf((a + b)[i])) <= k
  {
  }

  /** The six single-slot pieces of a wrapper, concatenated in render order. */
  function Assemble(sub: seq<Part>, para: seq<Part>, image: seq<Part>, video: seq<Part>, table: seq<Part>, cta: seq<Part>): seq<Part> {
    sub + para + image + video + table + cta
  }

  predicate Piece(ps: seq<Part>, slot: Slot) {
    |ps| <= 1 && AllOfSlot(ps, slot)
  }

  lemma AssembleInSlotOrder(sub: seq<Part>, para: seq<Part>, image: seq<Part>, video: seq<Part>, table: seq<Part>, cta: seq<Part>)
    requires Piece(sub, SubtitleSlot) && Piece(para, ParagraphSlot) && Piece(image, ImageSlot)
    requires Piece(video, VideoSlot) && Piece(table, TableSlot) && Piece(cta, CtaSlot)
    ensures InSlotOrder(Assemble(sub, para, image, video, table, cta))
  {
    ConcatInSlotOrder([], sub, 0);
    assert [] + sub == sub;
    ConcatInSlotOrder(sub, para, 1);
    ConcatInSlotOrder(sub + para, image, 2);
    ConcatInSlotOrder(sub + para + image, video, 3);
    ConcatInSlotOrder(sub + para + image + video, table, 4);
    ConcatInSlotOrder(sub + para + image + video + table, cta, 5);
  }

  lemma HasSlotConcat(a: seq<Part>, b: seq<Part>, slot: Slot)
    ensures HasSlot(a + b, slot) <==> HasSlot(a, slot) || HasSlot(b, slot)
  {
    if HasSlot(a + b, slot) {
      var i :| 0 <= i < |a + b| && SlotOf((a + b)[i]) == slot;
      if i >= |a| { assert b[i - |a|] == (a + b)[i]; }
    }
    if HasSlot(a, slot) {
      var i :| 0 <= i < |a| && SlotOf(a[i]) == slot;
      assert (a + b)[i] == a[i];
    }
    if HasSlot(b, slot) {
      var i :| 0 <= i < |b| && SlotOf(b[i]) == slot;
      assert (a + b)[|a| + i] == b[i];
    }
  }

  lemma HasSlotPiece(ps: seq<Part>, kind: Slot, slot: Slot)
    requires Piece(ps, kind)
    ensures HasSlot(ps, slot) <==> |ps| == 1 && kind == slot
  {
    if |ps| == 1 { assert SlotOf(ps[0]) == kind; }
  }

  /** Which slots an assembled wrapper holds: exactly those whose piece is non-empty. */
  lemma AssembleSlots(sub: seq<Part>, para: seq<Part>, image: seq<Part>, video: seq<Part>, table: seq<Part>, cta: seq<Part>, slot: Slot)
    requires Piece(sub, SubtitleSlot) && Piece(para, ParagraphSlot) && Piece(image, ImageSlot)
    requires Piece(video, VideoSlot) && Piece(table, TableSlot) && Piece(cta, CtaSlot)
    ensures HasSlot(Assemble(sub, para, image, video, table, cta), slot) <==>
      || (|sub| == 1 && slot == SubtitleSlot) || (|para| == 1 && slot == ParagraphSlot)
      || (|image| == 1 && slot == ImageSlot) || (|video| == 1 && slot == VideoSlot)
      || (|table| == 1 && slot == TableSlot) || (|cta| == 1 && slot == CtaSlot)
  {
    HasSlotConcat(sub, para, slot);
    HasSlotConcat(sub + para, image, slot);
    HasSlotConcat(sub + para + image, video, slot);
    HasSlotConcat(sub + para + image + video, table, slot);
    HasSlotConcat(sub + para + image + video + table, cta, slot);
    HasSlotPiece(sub, SubtitleSlot, slot);
    HasSlotPiece(para, ParagraphSlot, slot);
    HasSlotPiece(image, ImageSlot, slot);
    HasSlotPiece(video, VideoSlot, slot);
    HasSlotPiece(table, TableSlot, slot);
    HasSlotPiece(cta, CtaSlot, slot);
  }

  /** One section of the content map: a `null` section throws on `section.subtitle`;
      a section with none of the six kinds present renders nothing; otherwise one
      wrapper holding the parts each kind's own gate lets through, in slot order.
      The wrapper may be empty. Only a malformed table can make a non-null section throw. */
  function RenderSection(section: Json): (r: Outcome<Option<seq<Part>>>)
    ensures section == Null ==> r.Threw?
    ensures section != Null ==> (r == Ok(None) <==> !AnyContent(section))
    ensures r.Threw? <==> section == Null || RenderTable(Get(section, "table")).Threw?
    ensures r.Ok? && r.value.Some? ==> InSlotOrder(r.value.value)
  {
    MemberContent(Get(section, "table"), "headers");
    if section == Null then Threw(ReadOfNull("subtitle"))
    else if !AnyContent(section) then Ok(None)
    else match TableSlotParts(Get(section, "table"))
      case Threw(e) => Threw(e)
      case Ok(table) =>
        var sub := TextSlot(Get(section, "subtitle"), SubtitleSlot);
        var para := TextSlot(Get(section, "paragraph"), ParagraphSlot);
        var image := ObjectSlot(Get(section, "image"), ImageSlot);
        var video := ObjectSlot(Get(section, "video"), VideoSlot);
        var cta := ObjectSlot(Get(section, "cta"), CtaSlot);
        AssembleInSlotOrder(sub, para, image, video, table, cta);
        Ok(Some(Assemble(sub, para, image, video, table, cta)))
  }

  /** The gate of one kind inside the wrapper, written from the page's own
      conditions: a text kind needs content; the other kinds need the member
      their renderer checks, or the value `0`, which React prints. */
  predicate Gate(section: Json, slot: Slot) {
    match slot
    case SubtitleSlot => HasContent(Get(section, "subtitle"))
    case ParagraphSlot => HasContent(Get(section, "paragraph"))
    case ImageSlot => HasContent(Get(Get(section, "image"), "url")) || Get(section, "image") == Num(0.0)
    case VideoSlot => HasContent(Get(Get(section, "video"), "embed_url")) || Get(section, "video") == Num(0.0)
    case TableSlot =>
      || (HasContent(Get(Get(section, "table"), "headers")) && HasContent(Get(Get(section, "table"), "rows")))
      || Get(section, "table") == Num(0.0)
    case CtaSlot =>
      || (HasContent(Get(Get(section, "cta"), "text")) && HasContent(Get(Get(section, "cta"), "link")))
      || Get(section, "cta") == Num(0.0)
  }

  /** Each kind is gated on its own: a part of a kind appears in a rendered
      section exactly when that kind's gate passes. */
  lemma SectionGates(section: Json, slot: Slot)
    ensures RenderSection(section).Ok? && RenderSection(section).value.Some? ==>
      (HasSlot(RenderSection(section).value.value, slot) <==> Gate(section, slot))
  {
    if section == Null || !AnyContent(section) || TableSlotParts(Get(section, "table")).Threw? {
      return;
    }
    var sub := TextSlot(Get(section, "subtitle"), SubtitleSlot);
    var para := TextSlot(Get(section, "paragraph"), ParagraphSlot);
    var image := ObjectSlot(Get(section, "image"), ImageSlot);
    var video := ObjectSlot(Get(section, "video"), VideoSlot);
    var table := TableSlotParts(Get(section, "table")).value;
    var cta := ObjectSlot(Get(section, "cta"), CtaSlot);
    assert RenderSection(section).value.value == Assemble(sub, para, image, video, table, cta);
    AssembleSlots(sub, para, image, video, table, cta, slot);
  }

  /** Any one kind's gate passing is enough for the section to render: the
      outer `hasAnyContent` test never hides a part that would show. */
  lemma GateShowsSection(section: Json, slot: Slot)
    requires section != Null && Gate(section, slot)
    ensures RenderSection(section) != Ok(None)
  {
    match slot
    case ImageSlot => MemberContent(Get(section, "image"), "url");
    case VideoSlot => MemberContent(Get(section, "video"), "embed_url");
    case TableSlot => MemberContent(Get(section, "table"), "headers");
    case CtaSlot => MemberContent(Get(section, "cta"), "text");
    case _ =>
  }

  /** The member of a section that each kind reads. */
  function SlotKey(slot: Slot): string {
    match slot
    case SubtitleSlot => "subtitle"
    case ParagraphSlot => "paragraph"
    case ImageSlot => "image"
    case VideoSlot => "video"
    case TableSlot => "table"
    case CtaSlot => "cta"
  }

  /** A part that belongs in the wrapper of `section`: a subtitle or paragraph
      shown as it is, the output of the kind's renderer on its member, or the
      printed `0` of an image, video, table or button member that is the
      number 0. A subtitle or paragraph of 0 is shown inside its element. */
  predicate PartFits(section: Json, p: Part) {
    match p
    case Heading(t) => t == Get(section, "subtitle")
    case Prose(t) => t == Get(section, "paragraph")
    case Picture(_, _, _) => RenderImage(Get(section, "image")) == Some(p)
    case Embed(_, _) => RenderVideo(Get(section, "video")) == Some(p)
    case Grid(_, _) => RenderTable(Get(section, "table")) == Ok(Some(p))
    case Button(_, _, _, _) => RenderCta(Get(section, "cta")) == Some(p)
    case Stray(slot, printed) =>
      && slot != SubtitleSlot && slot != ParagraphSlot
      && printed == "0" && Get(section, SlotKey(slot)) == Num(0.0)
  }

  predicate AllFit(section: Json, ps: seq<Part>) {
    forall i :: 0 <= i < |ps| ==> PartFits(section, ps[i])
  }

  lemma AllFitConcat(section: Json, a: seq<Part>, b: seq<Part>)
    requires AllFit(section, a) && AllFit(section, b)
    ensures AllFit(section, a + b)
  {
    forall i | 0 <= i < |a + b| ensures PartFits(section, (a + b)[i]) {
      if i >= |a| { assert (a + b)[i] == b[i - |a|]; }
    }
  }

  lemma ObjectSlotFits(section: Json, slot: Slot)
    requires slot == ImageSlot || slot == VideoSlot || slot == CtaSlot
    ensures AllFit(section, ObjectSlot(Get(section, SlotKey(slot)), slot))
  {
    var v := Get(section, SlotKey(slot));
    var r := ObjectSlot(v, slot);
    if |r| == 1 && Falsy(v) {
      assert Get(v, "url") == Null && Get(v, "embed_url") == Null && Get(v, "text") == Null;
    }
  }

  lemma TextSlotFits(section: Json, slot: Slot)
    requires slot == SubtitleSlot || slot == ParagraphSlot
    ensures AllFit(section, TextSlot(Get(section, SlotKey(slot)), slot))
  {
  }

  lemma TableSlotFits(section: Json)
    requires TableSlotParts(Get(section, "table")).Ok?
    ensures AllFit(section, TableSlotParts(Get(section, "table")).value)
  {
  }

  lemma AssembleFits(section: Json, sub: seq<Part>, para: seq<Part>, image: seq<Part>, video: seq<Part>, table: seq<Part>, cta: seq<Part>)
    requires AllFit(section, sub) && AllFit(section, para) && AllFit(section, image)
    requires AllFit(section, video) && AllFit(section, table) && AllFit(section, cta)
    ensures AllFit(section, Assemble(sub, para, image, video, table, cta))
  {
    AllFitConcat(section, sub, para);
    AllFitConcat(section, sub + para, image);
    AllFitConcat(section, sub + para + image, video);
    AllFitConcat(section, sub + para + image + video, table);
    AllFitConcat(section, sub + para + image + video + table, cta);
  }

  /** What a rendered section holds: every part is the value or renderer output
      of its own kind's member, or the `0` printed for an image, video, table
      or button member that is 0. With `SectionGates` and the slot order this
      fixes the wrapper completely. */
  lemma SectionParts(section: Json)
    ensures RenderSection(section).Ok? && RenderSection(section).value.Some? ==>
      AllFit(section, RenderSection(section).value.value)
  {
    if section == Null || !AnyContent(section) || TableSlotParts(Get(section, "table")).Threw? {
      return;
    }
    var sub := TextSlot(Get(section, SlotKey(SubtitleSlot)), SubtitleSlot);
    var para := TextSlot(Get(section, SlotKey(ParagraphSlot)), ParagraphSlot);
    var image := ObjectSlot(Get(section, SlotKey(ImageSlot)), ImageSlot);
    var video := ObjectSlot(Get(section, SlotKey(VideoSlot)), VideoSlot);
    var table := TableSlotParts(Get(section, "table")).value;
    var cta := ObjectSlot(Get(section, SlotKey(CtaSlot)), CtaSlot);
    TextSlotFits(section, SubtitleSlot);
    TextSlotFits(section, ParagraphSlot);
    ObjectSlotFits(section, ImageSlot);
    ObjectSlotFits(section, VideoSlot);
    ObjectSlotFits(section, CtaSlot);
    TableSlotFits(section);
    AssembleFits(section, sub, para, image, video, table, cta);
    RenderedAssembly(section);
  }

  /** A section that renders holds the six single-slot pieces in order. */
  lemma RenderedAssembly(section: Json)
    requires section != Null && AnyContent(section) && TableSlotParts(Get(section, "table")).Ok?
    ensures RenderSection(section) == Ok(Some(Assemble(
      TextSlot(Get(section, "subtitle"), SubtitleSlot), TextSlot(Get(section, "paragraph"), ParagraphSlot),
      ObjectSlot(Get(section, "image"), ImageSlot), ObjectSlot(Get(section, "video"), VideoSlot),
      TableSlotParts(Get(section, "table")).value, ObjectSlot(Get(section, "cta"), CtaSlot))))
  {
  }

  /** A section whose only content is an image caption still gets its (empty) wrapper. */
  lemma EmptyWrapperExample()
    ensures RenderSection(Obj([("image", Obj([("caption", Str("c"))]))])) == Ok(Some([]))
  {
    var image := Obj([("caption", Str("c"))]);
    var section := Obj([("image", image)]);
    assert Get(section, "image") == image;
    assert Get(section, "subtitle") == Null by { assert "image" != "subtitle"; }
    assert Get(section, "paragraph") == Null by { assert "image" != "paragraph"; }
    assert Get(section, "video") == Null by { assert "image" != "video"; }
    assert Get(section, "table") == Null by { assert "image" != "table"; }
    assert Get(section, "cta") == Null by { assert "image" != "cta"; }
    assert Get(image, "url") == Null by { assert "caption" != "url"; }
    assert HasContent(Str("c")) by { assert "c"[0] == 'c'; }
    assert HasContent(image.fields[0].1);
    assert AnyContent(section);
  }

  /** `{image: 0}` passes the section gate (0 counts as present) and React prints the `0`. */
  lemma StrayZeroExample()
    ensures RenderSection(Obj([("image", Num(0.0))])) == Ok(Some([Stray(ImageSlot, "0")]))
  {
    var section := Obj([("image", Num(0.0))]);
    assert Get(section, "image") == Num(0.0);
    assert Get(section, "subtitle") == Null by { assert "image" != "subtitle"; }
    assert Get(section, "paragraph") == Null by { assert "image" != "paragraph"; }
    assert Get(section, "video") == Null by { assert "image" != "video"; }
    assert Get(section, "table") == Null by { assert "image" != "table"; }
    assert Get(section, "cta") == Null by { assert "image" != "cta"; }
    assert ObjectSlot(Num(0.0), ImageSlot) == [Stray(ImageSlot, "0")];
    assert TableSlotParts(Null) == Ok([]);
    assert Assemble([], [], [Stray(ImageSlot, "0")], [], [], []) == [Stray(ImageSlot, "0")];
  }

  /** `{subtitle: 0}`: 0 counts as present, so the subtitle element shows it;
      no bare "0" is printed. */
  lemma ZeroSubtitleExample()
    ensures RenderSection(Obj([("subtitle", Num(0.0))])) == Ok(Some([Heading(Num(0.0))]))
  {
    var section := Obj([("subtitle", Num(0.0))]);
    assert Get(section, "subtitle") == Num(0.0);
    assert Get(section, "paragraph") == Null by { assert "subtitle" != "paragraph"; }
    assert Get(section, "image") == Null by { assert "subtitle" != "image"; }
    assert Get(section, "video") == Null by { assert "subtitle" != "video"; }
    assert Get(section, "table") == Null by { assert "subtitle" != "table"; }
    assert Get(section, "cta") == Null by { assert "subtitle" != "cta"; }
    assert TextSlot(Num(0.0), SubtitleSlot) == [Heading(Num(0.0))];
    assert TableSlotParts(Null) == Ok([]);
    assert Assemble([Heading(Num(0.0))], [], [], [], [], []) == [Heading(Num(0.0))];
  }

  /** A table `{headers: ["H1"], rows: [["v1"], [""]]}` shows "-" for the empty cell. */
  lemma TableFallbackExample()
    ensures var table := Obj([("headers", Arr([Str("H1")])), ("rows", Arr([Arr([Str("v1")]), Arr([Str("")])]))]);
      RenderTable(table) == Ok(Some(Grid([Str("H1")], [[Str("v1")], [Str(CellFallback)]])))
  {
    var hs := Arr([Str("H1")]);
    var rs := Arr([Arr([Str("v1")]), Arr([Str("")])]);
    var table := Obj([("headers", hs), ("rows", rs)]);
    assert Get(table, "headers") == hs;
    assert Get(table, "rows") == rs by {
      assert "headers" != "rows";
      assert table.fields[1..] == [("rows", rs)];
      assert Lookup(table.fields[1..], "rows") == rs;
    }
    assert HasContent(table.fields[0].1);
    assert AllArrays(rs.items);
    var r := RenderTable(table);
    assert r.Ok? && r.value.Some?;
    var g := r.value.value;
    assert |g.headers| == 1 && |g.rows| == 2 && |g.rows[0]| == 1 && |g.rows[1]| == 1;
    assert g.headers[0] == Str("H1") by { assert !Falsy(Str("H1")); }
    assert g.rows[0][0] == Str("v1") by { assert !Falsy(Str("v1")); }
    assert g.rows[1][0] == Str(CellFallback);
    assert g.headers == [Str("H1")];
    assert g.rows[0] == [Str("v1")];
    assert g.rows[1] == [Str(CellFallback)];
    assert g.rows == [[Str("v1")], [Str(CellFallback)]];
  }
}

=== FILE: subscribe.dfy ===
/**
 The subscribe form as a state machine over (button label, input text).
 `onSubscribe` is split at its `await`: submitting sends the request and
 shows "Subscribing...", and the reply arrives as a later event.
 */
module Subscribe {
  import opened Text
  import opened Json

  const Idle := "Subscribe"
  const Sending := "Subscribing..."
  const Done := "Subscribed"

  const BlankInputAlert := "Please enter a valid email address"
  const RejectedAlert := "Subscription failed due to network issue! Try again!"
  const FailedAlert := "Subscription failed! Please try again."

  /** `subscribeStatus` (the button label) and `input`. */
  datatype State = State(status: string, input: string)

  const Initial := State(Idle, "")

  predicate ValidStatus(status: string) {
    status == Idle || status == Sending || status == Done
  }

  /** How a submission is made: the button (disabled while sending) or Enter in the input. */
  datatype Trigger = ButtonClick | EnterKey

  /** The outcome of `POST /addSub`: the response body, or a transport failure. */
  datatype Reply = Response(body: Json) | TransportFailure

  datatype Event = Typed(text: string) | Submit(via: Trigger) | Replied(reply: Reply)

  /** What the page does besides changing state. */
  datatype Effect = NoEffect | Alert(message: string) | Post(submail: string)

  predicate IsBlank(s: string) {
    |Trim(s)| == 0
  }

  /** Only a response body whose `status_code` is exactly the number 200 counts as success. */
  predicate Succeeded(reply: Reply) {
    reply.Response? && Get(reply.body, "status_code") == Num(200.0)
  }

  /** `onSubscribe` up to the request: blank input only alerts; otherwise the
      label becomes "Subscribing..." and the input is posted as typed. */
  function OnSubmit(s: State): (r: (State, Effect))
    ensures r.1.Post? <==> !IsBlank(s.input)
    ensures r.1.Post? ==> r.1.submail == s.input && r.0 == State(Sending, s.input)
    ensures !r.1.Post? ==> r.0 == s && r.1 == Alert(BlankInputAlert)
    ensures r.0.input == s.input
  {
    if IsBlank(s.input) then (s, Alert(BlankInputAlert))
    else (State(Sending, s.input), Post(s.input))
  }

  /** The rest of `onSubscribe` once the request settles. Reading
      `status_code` of a `null` body throws and lands in the `catch`. */
  function OnReply(s: State, reply: Reply): (r: (State, Effect))
    ensures Succeeded(reply) ==> r.0 == State(Done, "") && r.1 == NoEffect
    ensures !Succeeded(reply) ==> r.0 == State(Idle, s.input) && r.1.Alert?
  {
    match reply
    case TransportFailure => (State(Idle, s.input), Alert(FailedAlert))
    case Response(body) =>
      if body == Null then (State(Idle, s.input), Alert(FailedAlert))
      else if Get(body, "status_code") == Num(200.0) then (State(Done, ""), NoEffect)
      else (State(Idle, s.input), Alert(RejectedAlert))
  }

  /** The page as written: the disabled button ignores clicks while sending,
      but Enter in the input calls `onSubscribe` whatever the label. */
  function StepAsWritten(s: State, e: Event): (r: (State, Effect))
    ensures e.Submit? && e.via == ButtonClick && s.status == Sending ==> r == (s, NoEffect)
    ensures ValidStatus(s.status) ==> ValidStatus(r.0.status)
    ensures r.1.Post? ==> r.1.submail == s.input && !IsBlank(s.input) && r.0 == State(Sending, s.input)
  {
    match e
    case Typed(text) => (State(s.status, text), NoEffect)
    case Submit(via) => if via == ButtonClick && s.status == Sending then (s, NoEffect) else OnSubmit(s)
    case Replied(reply) => OnReply(s, reply)
  }

  /** Enter while a request is in flight sends the same address a second time. */
  lemma EnterResubmitsWhileInFlight()
    ensures StepAsWritten(State(Sending, "a@b.c"), Submit(EnterKey)) == (State(Sending, "a@b.c"), Post("a@b.c"))
  {
    assert "a@b.c"[0] == 'a';
    assert !IsBlank("a@b.c");
  }

  /** The step the model uses: a submission of either kind is ignored while a
      request is in flight, as the disabled button intends. */
  function Step(s: State, e: Event): (r: (State, Effect))
    ensures s.status == Sending ==> !r.1.Post?
    ensures r.1.Post? ==> r.1.submail == s.input && !IsBlank(s.input) && r.0 == State(Sending, s.input)
    ensures ValidStatus(s.status) ==> ValidStatus(r.0.status)
    ensures e.Submit? && IsBlank(s.input) ==> r.0 == s
  {
    match e
    case Typed(text) => (State(s.status, text), NoEffect)
    case Submit(_) => if s.status == Sending then (s, NoEffect) else OnSubmit(s)
    case Replied(reply) => OnReply(s, reply)
  }

  /** The correction changes nothing except Enter while sending. */
  lemma StepAgreesOutsideInFlight(s: State, e: Event)
    ensures !(e.Submit? && s.status == Sending) ==> Step(s, e) == StepAsWritten(s, e)
    ensures e.Submit? && s.status == Sending ==> Step(s, e) == (s, NoEffect)
  {
  }

  /** One submission followed by its reply, from a state not already sending:
      blank input sends nothing and changes nothing; a 200 shows "Subscribed"
      and clears the input; anything else shows "Subscribe" and keeps the input. */
  lemma SubscribeRound(s: State, via: Trigger, reply: Reply)
    requires s.status != Sending
    ensures IsBlank(s.input) ==> Step(s, Submit(via)) == (s, Alert(BlankInputAlert))
    ensures !IsBlank(s.input) ==>
      && Step(s, Submit(via)).1 == Post(s.input)
      && Step(Step(s, Submit(via)).0, Replied(reply)).0
           == (if Succeeded(reply) then State(Done, "") else State(Idle, s.input))
  {
  }

  /** Which machine a run follows: the page as written, or the corrected step. */
  datatype Version = AsWritten | Corrected

  function StepOf(v: Version, s: State, e: Event): (State, Effect) {
    match v
    case AsWritten => StepAsWritten(s, e)
    case Corrected => Step(s, e)
  }

  /** The state after a series of events from the initial state. */
  function Run(v: Version, events: seq<Event>): (r: State)
    ensures |events| == 0 ==> r == Initial
    ensures |events| > 0 && events[|events| - 1].Typed? ==> r.input == events[|events| - 1].text
    decreases |events|
  {
    if |events| == 0 then Initial
    else StepOf(v, Run(v, events[..|events| - 1]), events[|events| - 1]).0
  }

  /** On either machine the button label is always one of the three labels the page uses. */
  lemma {:induction false} RunKeepsValidStatus(v: Version, events: seq<Event>)
    ensures ValidStatus(Run(v, events).status)
    decreases |events|
  {
    if |events| > 0 {
      RunKeepsValidStatus(v, events[..|events| - 1]);
    }
  }
}

=== FILE: tags.dfy ===
/**
 `convertTagsToArray`: an article's tags arrive as one comma-separated string
 and are shown as a list of trimmed, non-empty tags in their original order.
 */
module Tags {
  import opened Text
  import opened Json

  /** A tag as the page displays it: non-empty, no surrounding white space, no comma. */
  predicate WellFormedTag(t: string) {
    |t| > 0 && IsTrimmed(t) && ',' !in t
  }

  /** Trims each comma-separated piece and drops those left empty, keeping order. */
  function CleanPieces(pieces: seq<string>): seq<string> {
    if |pieces| == 0 then []
    else
      var t := Trim(pieces[0]);
      (if |t| > 0 then [t] else []) + CleanPieces(pieces[1..])
  }

  /** Every kept piece is a well-formed tag. */
  lemma {:induction false} CleanPiecesWellFormed(pieces: seq<string>)
    requires forall i :: 0 <= i < |pieces| ==> ',' !in pieces[i]
    ensures |CleanPieces(pieces)| <= |pieces|
    ensures forall i :: 0 <= i < |CleanPieces(pieces)| ==> WellFormedTag(CleanPieces(pieces)[i])
  {
    if |pieces| > 0 {
      var t := Trim(pieces[0]);
      assert ',' !in t by {
        var a := TrimDecompose(pieces[0]);
        assert t == pieces[0][a..a + |t|];
      }
      CleanPiecesWellFormed(pieces[1..]);
    }
  }

  /** The tags kept from `pieces` are exactly the non-empty trimmed pieces. */
  lemma {:induction false} CleanPiecesMembers(pieces: seq<string>)
    ensures forall x :: x in CleanPieces(pieces) <==>
      |x| > 0 && exists i :: 0 <= i < |pieces| && Trim(pieces[i]) == x
  {
    if |pieces| > 0 {
      CleanPiecesMembers(pieces[1..]);
      assert forall i :: 1 <= i < |pieces| ==> pieces[i] == pieces[1..][i - 1];
      forall x | |x| > 0 && exists i :: 0 <= i < |pieces| && Trim(pieces[i]) == x
        ensures x in CleanPieces(pieces)
      {
        var i :| 0 <= i < |pieces| && Trim(pieces[i]) == x;
        if i > 0 { assert pieces[1..][i - 1] == pieces[i]; }
      }
    }
  }

  /** Cleaning works piece by piece, so the kept tags stay in input order. */
  lemma {:induction false} CleanPiecesConcat(a: seq<string>, b: seq<string>)
    ensures CleanPieces(a + b) == CleanPieces(a) + CleanPieces(b)
    decreases |a|
  {
    if |a| > 0 {
      assert (a + b)[1..] == a[1..] + b;
      CleanPiecesConcat(a[1..], b);
    } else {
      assert a + b == b;
    }
  }

  /** `convertTagsToArray(tagsString)`: a falsy or non-string input gives no
      tags; a string gives exactly the non-empty trimmed comma-separated pieces. */
  function ConvertTagsToArray(tags: Json): (r: seq<string>)
    ensures Falsy(tags) || !tags.Str? ==> r == []
    ensures forall i :: 0 <= i < |r| ==> WellFormedTag(r[i])
    ensures tags.Str? ==> |r| <= |tags.s| + 1
    ensures tags.Str? ==> forall x :: x in r <==>
      |x| > 0 && exists i :: 0 <= i < |Split(tags.s, ',')| && Trim(Split(tags.s, ',')[i]) == x
  {
    if Falsy(tags) || !tags.Str? then
      assert tags.Str? ==> Split(tags.s, ',') == [""];
      assert Trim("") == "";
      []
    else
      CleanPiecesWellFormed(Split(tags.s, ','));
      CleanPiecesMembers(Split(tags.s, ','));
      CleanPieces(Split(tags.s, ','))
  }

  /** For any comma-free pieces joined with ",", the tags are exactly those
      pieces trimmed, with the blank ones dropped, in order. */
  lemma JoinedPiecesToTags(pieces: seq<string>)
    requires forall i :: 0 <= i < |pieces| ==> ',' !in pieces[i]
    ensures ConvertTagsToArray(Str(Join(pieces, ","))) == CleanPieces(pieces)
  {
    if |pieces| == 0 || (|pieces| == 1 && pieces[0] == "") {
      assert Join(pieces, ",") == "";
      assert CleanPieces(pieces) == [] by {
        assert Trim("") == "";
        if |pieces| == 1 { assert CleanPieces(pieces) == [] + CleanPieces([]); }
      }
    } else {
      var s := Join(pieces, ",");
      assert s != "" by {
        if |pieces| > 1 {
          assert s == pieces[0] + "," + Join(pieces[1..], ",");
        }
      }
      assert Split(s, ',') == pieces by {
        assert "," == [','];
        JoinSplit(pieces, ',');
      }
      ConvertString(s);
    }
  }

  /** A non-empty string gives the cleaned comma-separated pieces. */
  lemma ConvertString(s: string)
    requires s != ""
    ensures ConvertTagsToArray(Str(s)) == CleanPieces(Split(s, ','))
  {
  }

  /** Joining a list of well-formed tags with ", " and converting it back gives
      the same tags in the same order. */
  lemma {:induction false} TagsRoundTrip(tags: seq<string>)
    requires forall i :: 0 <= i < |tags| ==> WellFormedTag(tags[i])
    ensures ConvertTagsToArray(Str(Join(tags, ", "))) == tags
  {
    var joined := Join(tags, ", ");
    if |tags| > 0 {
      assert CleanPieces(Split(joined, ',')) == tags by {
        JoinedTagsClean(tags, "");
        assert "" + joined == joined;
      }
      assert !Falsy(Str(joined)) by {
        JoinNonEmpty(tags);
      }
    } else {
      assert joined == "";
    }
  }

  lemma {:induction false} JoinNonEmpty(tags: seq<string>)
    requires |tags| > 0 && |tags[0]| > 0
    ensures |Join(tags, ", ")| > 0
  {
  }

  lemma {:induction false} JoinedTagsClean(tags: seq<string>, lead: string)
    requires |tags| > 0
    requires forall i :: 0 <= i < |tags| ==> WellFormedTag(tags[i])
    requires AllWhitespace(lead) && ',' !in lead
    ensures CleanPieces(Split(lead + Join(tags, ", "), ',')) == tags
    decreases |tags|
  {
    var t0 := tags[0];
    assert Trim(lead + t0) == t0 by {
      TrimPadded(lead, t0, "");
      assert lead + t0 + "" == lead + t0;
    }
    if |tags| == 1 {
      assert Split(lead + Join(tags, ", "), ',') == [lead + t0] by {
        assert ',' !in lead + t0;
        SplitWhole(lead + t0, ',');
      }
      assert CleanPieces([lead + t0]) == [t0] + CleanPieces([]);
    } else {
      var rest := Join(tags[1..], ", ");
      var pieces := [lead + t0] + Split(" " + rest, ',');
      SplitJoined(tags, lead);
      assert CleanPieces(pieces[1..]) == tags[1..] by {
        assert pieces[1..] == Split(" " + rest, ',');
        assert AllWhitespace(" ");
        JoinedTagsClean(tags[1..], " ");
      }
      assert CleanPieces(pieces) == [t0] + tags[1..];
    }
  }

  /** The first tag of a ", "-joined list splits off as one piece. */
  lemma SplitJoined(tags: seq<string>, lead: string)
    requires |tags| > 1 && ',' !in lead && ',' !in tags[0]
    ensures Split(lead + Join(tags, ", "), ',')
         == [lead + tags[0]] + Split(" " + Join(tags[1..], ", "), ',')
  {
    var t0, rest := tags[0], Join(tags[1..], ", ");
    assert lead + Join(tags, ", ") == (lead + t0) + [','] + (" " + rest) by {
      assert Join(tags, ", ") == t0 + ", " + rest;
      assert ", " == [','] + " ";
    }
    SplitAfterPiece(lead + t0, ',', " " + rest);
  }

  /** The example from the page's behaviour: `" a, b ,,c "` gives `["a", "b", "c"]`. */
  lemma SplitExample()
    ensures ConvertTagsToArray(Str(" a, b ,,c ")) == ["a", "b", "c"]
  {
    ExamplePieces();
    ExampleClean();
  }

  lemma ExamplePieces()
    ensures Split(" a, b ,,c ", ',') == [" a", " b ", "", "c "]
  {
    assert " a, b ,,c " == " a" + [','] + " b ,,c ";
    SplitAfterPiece(" a", ',', " b ,,c ");
    assert " b ,,c " == " b " + [','] + ",c ";
    SplitAfterPiece(" b ", ',', ",c ");
    assert ",c " == "" + [','] + "c ";
    SplitAfterPiece("", ',', "c ");
    SplitWhole("c ", ',');
  }

  lemma ExampleClean()
    ensures CleanPieces([" a", " b ", "", "c "]) == ["a", "b", "c"]
  {
    CleanFour(" a", " b ", "", "c ", "a", "b", "c");
  }

  /** Four pieces of which the third trims to nothing. */
  lemma CleanFour(p0: string, p1: string, p2: string, p3: string, t0: string, t1: string, t3: string)
    requires ',' !in p0 && ',' !in p1 && ',' !in p2 && ',' !in p3
    requires Trim(p0) == t0 && Trim(p1) == t1 && Trim(p2) == "" && Trim(p3) == t3
    requires |t0| > 0 && |t1| > 0 && |t3| > 0
    ensures CleanPieces([p0, p1, p2, p3]) == [t0, t1, t3]
  {
    var pieces := [p0, p1, p2, p3];
    assert pieces[1..] == [p1, p2, p3];
    assert pieces[1..][1..] == [p2, p3];
    assert pieces[1..][1..][1..] == [p3];
    assert CleanPieces([p3]) == [t3] + CleanPieces([]);
    assert CleanPieces([p2, p3]) == [t3];
    assert CleanPieces([p1, p2, p3]) == [t1, t3];
  }
}

=== FILE: text.dfy ===
/**
 String helpers the article page relies on: JavaScript's `String.prototype.trim`,
 `split` on a single separator character, and the decimal rendering of the
 column number in a table's fallback header.
 Strings are sequences of Unicode scalar values.
 */
module Text {

  /** The characters `trim` removes: ECMAScript WhiteSpace and LineTerminator. */
  predicate IsWhitespace(c: char) {
    || c == '\t' || c == '\n' || c == '\U{000B}' || c == '\U{000C}' || c == '\r' || c == ' '
    || c == '\U{00A0}' || c == '\U{1680}' || ('\U{2000}' <= c <= '\U{200A}')
    || c == '\U{2028}' || c == '\U{2029}' || c == '\U{202F}' || c == '\U{205F}'
    || c == '\U{3000}' || c == '\U{FEFF}'
  }

  predicate AllWhitespace(s: string) {
    forall i :: 0 <= i < |s| ==> IsWhitespace(s[i])
  }

  /** Neither end of `s` is white space (vacuously true of the empty string). */
  predicate IsTrimmed(s: string) {
    |s| == 0 || (!IsWhitespace(s[0]) && !IsWhitespace(s[|s| - 1]))
  }

  function TrimStart(s: string): string {
    if |s| > 0 && IsWhitespace(s[0]) then TrimStart(s[1..]) else s
  }

  function TrimEnd(s: string): string {
    if |s| > 0 && IsWhitespace(s[|s| - 1]) then TrimEnd(s[..|s| - 1]) else s
  }

  /** `trimStart` drops exactly the leading run of white space. */
  lemma {:induction false} TrimStartSpec(s: string)
    ensures |TrimStart(s)| <= |s| && TrimStart(s) == s[|s| - |TrimStart(s)|..]
    ensures AllWhitespace(s[..|s| - |TrimStart(s)|])
    ensures |TrimStart(s)| == 0 || !IsWhitespace(TrimStart(s)[0])
    decreases |s|
  {
    if |s| > 0 && IsWhitespace(s[0]) {
      var p := s[1..];
      TrimStartSpec(p);
      var n := |TrimStart(p)|;
      assert TrimStart(s) == TrimStart(p);
      assert p[|p| - n..] == s[|s| - n..];
      assert s[..|s| - n] == [s[0]] + p[..|p| - n];
    }
  }

  /** `trimEnd` drops exactly the trailing run of white space. */
  lemma {:induction false} TrimEndSpec(s: string)
    ensures |TrimEnd(s)| <= |s| && TrimEnd(s) == s[..|TrimEnd(s)|]
    ensures AllWhitespace(s[|TrimEnd(s)|..])
    ensures |TrimEnd(s)| == 0 || !IsWhitespace(TrimEnd(s)[|TrimEnd(s)| - 1])
    decreases |s|
  {
    if |s| > 0 && IsWhitespace(s[|s| - 1]) {
      var p := s[..|s| - 1];
      TrimEndSpec(p);
      var n := |TrimEnd(p)|;
      assert TrimEnd(s) == TrimEnd(p);
      assert p[..n] == s[..n];
      assert s[n..] == p[n..] + [s[|s| - 1]];
    }
  }

  /** `s.trim()`: the longest infix of `s` that neither starts nor ends with white space. */
  function Trim(s: string): (r: string)
    ensures IsTrimmed(r)
    ensures |r| <= |s|
    ensures |r| == 0 <==> AllWhitespace(s)
  {
    var t := TrimStart(s);
    var r := TrimEnd(t);
    TrimStartSpec(s);
    TrimEndSpec(t);
    assert |r| == 0 ==> AllWhitespace(s) by {
      if |r| == 0 {
        assert s == s[..|s| - |t|] + t;
        assert t == r + t[|r|..];
      }
    }
    assert |r| > 0 ==> !IsWhitespace(r[0]) by {
      if |r| > 0 { assert r[0] == t[0]; }
    }
    r
  }

  /** `trim` keeps exactly the part of `s` between two runs of white space. */
  lemma {:induction false} TrimDecompose(s: string) returns (a: nat)
    ensures a + |Trim(s)| <= |s|
    ensures s[a..a + |Trim(s)|] == Trim(s)
    ensures AllWhitespace(s[..a]) && AllWhitespace(s[a + |Trim(s)|..])
  {
    var t := TrimStart(s);
    var r := TrimEnd(t);
    TrimStartSpec(s);
    TrimEndSpec(t);
    a := |s| - |t|;
    assert s[a..] == t;
    assert s[a..a + |r|] == t[..|r|];
    assert s[a + |r|..] == t[|r|..];
  }

  lemma {:induction false} TrimStartPadded(w: string, t: string)
    requires AllWhitespace(w)
    requires |t| == 0 || !IsWhitespace(t[0])
    ensures TrimStart(w + t) == t
    decreases |w|
  {
    if |w| > 0 {
      assert (w + t)[1..] == w[1..] + t;
      TrimStartPadded(w[1..], t);
    } else {
      assert w + t == t;
    }
  }

  lemma {:induction false} TrimEndPadded(t: string, w: string)
    requires AllWhitespace(w)
    requires |t| == 0 || !IsWhitespace(t[|t| - 1])
    ensures TrimEnd(t + w) == t
    decreases |w|
  {
    if |w| > 0 {
      assert (t + w)[..|t + w| - 1] == t + w[..|w| - 1];
      TrimEndPadded(t, w[..|w| - 1]);
    } else {
      assert t + w == t;
    }
  }

  /** Surrounding white space never reaches the result: trimming a padded
      already-trimmed string gives that string back. */
  lemma {:induction false} TrimPadded(w1: string, t: string, w2: string)
    requires AllWhitespace(w1) && AllWhitespace(w2) && IsTrimmed(t)
    ensures Trim(w1 + t + w2) == t
  {
    if |t| == 0 {
      assert w1 + t + w2 == w1 + w2;
      assert AllWhitespace(w1 + w2);
    } else {
      assert w1 + t + w2 == w1 + (t + w2);
      TrimStartPadded(w1, t + w2);
      TrimEndPadded(t, w2);
    }
  }

  /** Trimming twice is trimming once. */
  lemma TrimIdempotent(s: string)
    ensures Trim(Trim(s)) == Trim(s)
  {
    TrimPadded("", Trim(s), "");
    assert "" + Trim(s) + "" == Trim(s);
  }

  /** Joins `parts` with `sep` between consecutive parts (`Array.prototype.join`). */
  function Join(parts: seq<string>, sep: string): string {
    if |parts| == 0 then ""
    else if |parts| == 1 then parts[0]
    else parts[0] + sep + Join(parts[1..], sep)
  }

  /** `s.split(sep)` for a one-character separator: always at least one piece,
      and no piece contains the separator. */
  function Split(s: string, sep: char): (r: seq<string>)
    ensures 1 <= |r| <= |s| + 1
    ensures forall i :: 0 <= i < |r| ==> sep !in r[i]
  {
    if |s| == 0 then [""]
    else
      var rest := Split(s[1..], sep);
      if s[0] == sep then [""] + rest
      else [[s[0]] + rest[0]] + rest[1..]
  }

  /** Splitting loses nothing: joining the pieces back with the separator restores `s`. */
  lemma {:induction false} SplitJoin(s: string, sep: char)
    ensures Join(Split(s, sep), [sep]) == s
    decreases |s|
  {
    if |s| > 0 {
      var rest := Split(s[1..], sep);
      SplitJoin(s[1..], sep);
      var r := Split(s, sep);
      if s[0] == sep {
        assert r == [""] + rest;
        assert [sep] + Join(rest, [sep]) == s;
      } else {
        assert r == [[s[0]] + rest[0]] + rest[1..];
        assert Join(r, [sep]) == [s[0]] + Join(rest, [sep]) by {
          if |rest| > 1 {
            assert r[1..] == rest[1..];
          }
        }
        assert s == [s[0]] + s[1..];
      }
    }
  }

  /** A leading piece free of the separator becomes the first piece. */
  lemma {:induction false} SplitAfterPiece(a: string, sep: char, b: string)
    requires sep !in a
    ensures Split(a + [sep] + b, sep) == [a] + Split(b, sep)
    decreases |a|
  {
    if |a| == 0 {
      assert a + [sep] + b == [sep] + b;
      assert ([sep] + b)[1..] == b;
    } else {
      assert (a + [sep] + b)[1..] == a[1..] + [sep] + b;
      SplitAfterPiece(a[1..], sep, b);
      assert [a[0]] + a[1..] == a;
    }
  }

  /** A string free of the separator splits into itself alone. */
  lemma {:induction false} SplitWhole(a: string, sep: char)
    requires sep !in a
    ensures Split(a, sep) == [a]
    decreases |a|
  {
    if |a| > 0 {
      SplitWhole(a[1..], sep);
      assert [a[0]] + a[1..] == a;
    }
  }

  /** Splitting undoes joining: separator-free pieces joined with the separator
      split back into the same pieces. */
  lemma {:induction false} JoinSplit(parts: seq<string>, sep: char)
    requires |parts| > 0
    requires forall i :: 0 <= i < |parts| ==> sep !in parts[i]
    ensures Split(Join(parts, [sep]), sep) == parts
    decreases |parts|
  {
    if |parts| == 1 {
      SplitWhole(parts[0], sep);
    } else {
      JoinSplit(parts[1..], sep);
      assert Join(parts, [sep]) == parts[0] + [sep] + Join(parts[1..], [sep]);
      SplitAfterPiece(parts[0], sep, Join(parts[1..], [sep]));
      assert [parts[0]] + parts[1..] == parts;
    }
  }

  predicate IsDigit(c: char) {
    '0' <= c <= '9'
  }

  function DigitChar(d: nat): (c: char)
    requires d < 10
    ensures IsDigit(c)
  {
    "0123456789"[d]
  }

  /** Decimal text of `n`, as JavaScript converts a non-negative integer to a string. */
  function NatToString(n: nat): (r: string)
    ensures |r| >= 1
    ensures forall i :: 0 <= i < |r| ==> IsDigit(r[i])
    ensures |r| > 1 ==> r[0] != '0'
    decreases n
  {
    if n < 10 then [DigitChar(n)] else NatToString(n / 10) + [DigitChar(n % 10)]
  }

  /** Reads a string of decimal digits back as a number. */
  function DecimalValue(s: string): int
    requires forall i :: 0 <= i < |s| ==> IsDigit(s[i])
  {
    if |s| == 0 then 0
    else 10 * DecimalValue(s[..|s| - 1]) + ((s[|s| - 1] as int) - ('0' as int))
  }

  /** The decimal text of `n` denotes `n`. */
  lemma {:induction false} DecimalRoundTrip(n: nat)
    ensures DecimalValue(NatToString(n)) == n
    decreases n
  {
    var s := NatToString(n);
    if n >= 10 {
      DecimalRoundTrip(n / 10);
      assert s[..|s| - 1] == NatToString(n / 10);
    }
  }
}
